=== FILE: README.md ===
# Expression: a verified model of a symbolic expression library

The library builds arithmetic expression trees, either through a handle
class `Expression<T>` with overloaded operators and the functions `sin`,
`cos`, `ln` and `exp`, or by parsing text. A tree can be evaluated under
a map from variable names to values (`eval`), rendered fully
parenthesised (`to_string`), and differentiated symbolically into text
(`diff`). This project models the instantiation `Expression<int>`:

- `tree.dfy` (module `Tree`): the node kinds (a constant, a variable,
  five binary operators, four functions) and the three errors the
  library throws, with their exact messages.
- `printer.dfy` (module `Printer`): `to_string` and the textual `diff` of
  every node kind.
- `evaluator.dfy` (module `Evaluator`): `eval`, with C++ integer division
  (truncating toward zero), the divisor evaluated and tested before the
  dividend, and `pow`, `sin`, `cos`, `ln`, `exp` taken as a parameter.
- `scanning.dfy` (module `Scanning`): the string primitives the parser
  relies on: space deletion, `find`, the parenthesis-depth scan that
  looks for the first operator at depth 0, `substr` with its clamping,
  the wrap-around of `size_t` subtraction, and the leading-digits reading
  of `std::stod`.
- `parser.dfy` (module `Parser`): the parsing constructor. `Parse` states
  what tree a text yields; `ParseExpression` is the constructor's own
  loops, proved to compute it. The parser splits at the FIRST operator at
  depth 0 of the weakest level, so chains nest to the right
  (`10 - 2 - 3` reads as 10 - (2 - 3), worth 11). A leading sign gets the
  constant 0 as its left operand. A group whose inside reads as q is
  built as (q - q) + q.
- `reading.dfy` (module `Reading`): printing a well-formed tree and
  parsing the text gives back the tree with each binary node wrapped in
  the group tree, which evaluates like the original. So printing is
  injective on well-formed trees.
- `derivative.dfy` (module `Derivatives`): the derivative as a tree, and
  the proof that, for a well-formed tree (non-negative constants and
  plain names), the text `diff` produces parses to a tree that evaluates
  exactly like that derivative.
- `handle.dfy` (module `Handle`): the class `Expression`, whose one field
  is the tree it points at (or nothing, for a default-constructed or
  moved-from handle), with its constructors, assignments, operators and
  compound assignments.
- `examples.dfy` (module `Examples`): concrete readings, printings and
  evaluations, several of them the expected outputs of the library's own
  tests.

## Model

| member | source | states |
|---|---|---|
| Tree.MessageIdentifiesError | src/expression.cpp:168-175 | the three thrown messages (an undefined variable at line 172, division by zero at 254, the parenthesis mismatch at 402 and 452) are pairwise different, and the undefined-variable message determines the variable's name |
| Printer.NatToString | src/expression.cpp:151-158 | `std::to_string` of a non-negative value is a non-empty string of decimal digits without a leading zero, except for 0 itself |
| Printer.IntToString | src/expression.cpp:151-158 | `std::to_string` of an int starts with a minus sign exactly when the value is negative, and every other character is a decimal digit |
| Printer.ToString | src/expression.cpp:151-357 | a variable prints as its own name, a constant starts with a minus sign exactly when it is negative, and every binary operation prints wrapped in one pair of parentheses |
| Printer.Diff | src/expression.cpp:160-362 | diff is "1" exactly for the variable being differentiated, "0" exactly for a constant or another variable, and parenthesised text otherwise |
| Evaluator.TruncDiv | src/expression.cpp:250-257 | integer division truncates toward zero: the remainder is smaller than the divisor in size and is zero or has the dividend's sign |
| Evaluator.Eval | src/expression.cpp:137-352 | evaluation fails only by naming an undefined variable of the tree, or with a division by zero in a tree that divides |
| Evaluator.EvalDefinedIff | src/expression.cpp:168-175 | a tree evaluates only if all its variables are in the context; for a tree without division, that is also sufficient |
| Evaluator.EvalLocal | src/expression.cpp:168-175 | two contexts that agree on the tree's variables give the same result or failure |
| Evaluator.DivisorFirst | src/expression.cpp:250-257 | a divisor that evaluates to 0 gives a division-by-zero failure, whatever the dividend |
| Evaluator.AddLeftFirst | src/expression.cpp:194-198 | a sum evaluates its left operand first: when that fails, the sum fails with the same error, whatever the right operand |
| Scanning.RemoveSpaces | src/expression.cpp:366-368 | the result has no space, is no longer than the input, and has every other character the input has |
| Scanning.DeleteOneSpace | src/expression.cpp:366-368 | deleting any single space does not change the text once all spaces are deleted, so the loop's order does not matter |
| Scanning.Find | src/expression.cpp:366-367 | `find` returns the first position of the character, or the length if it is absent |
| Scanning.FirstTop | src/expression.cpp:369-400 | the result is the first position that holds one of the operators at parenthesis depth 0, or None if no position does |
| Scanning.Enclosed | src/expression.cpp:450-459 | text in parentheses, whose inside never drops below depth 0, has no operator at depth 0, and it is balanced when its inside is |
| Scanning.SizeSub | src/expression.cpp:463 | `size_t` subtraction is exact when it does not underflow, and otherwise wraps to a huge value |
| Scanning.Substr | src/expression.cpp:454 | `substr` is a prefix of the rest of the text, of the requested length clamped to what is left |
| Scanning.LiteralOfNatToString | src/expression.cpp:498 | reading the leading digits of a printed non-negative number gives the number back |
| Scanning.IntLiteral | src/expression.cpp:151-158 | reading back the digits of any printed int, after the minus sign if there is one, gives its magnitude |
| Parser.Parse | src/expression.cpp:364-503 | the only failure the parsing constructor reports is a parenthesis mismatch |
| Parser.DeleteSpaces | src/expression.cpp:366-368 | the space-deleting loop computes the text with all spaces removed |
| Parser.ScanFor | src/expression.cpp:369-400 | each depth scan stops at the first operator of its level at depth 0, and otherwise ends with the depth of the whole text |
| Parser.ParseExpression | src/expression.cpp:364-503 | the constructor's loops and recursion build exactly the tree `Parse` specifies, or its failure |
| Parser.ParseProductText | src/expression.cpp:404-448 | the `*` `/` scan and the `^` scan build exactly what `ParseProduct` specifies |
| Parser.ParseAtomText | src/expression.cpp:450-502 | the atom cases (group, call, literal, variable) build exactly what `ParseAtom` specifies |
| Parser.ParseZero | src/expression.cpp:384-386 | the text "0" that stands in for an empty left operand reads as the constant 0 |
| Parser.ParseIgnoresSpaces | src/expression.cpp:366-368 | text reads exactly as it does with its spaces deleted |
| Parser.UnbalancedRejected | src/expression.cpp:401-403 | text whose parentheses do not even out is always rejected with a parenthesis mismatch |
| Parser.UnclosedGroupRejected | src/expression.cpp:450-452 | text that no operator splits and that opens with "(" but does not end with ")" is rejected with a parenthesis mismatch |
| Parser.ParseJoin | src/expression.cpp:369-448 | two balanced operands joined by an operator read as that operator applied to the two readings when the left operand has no depth-0 operator of the same or a weaker level (and is non-empty for + and -) and the right operand has none of a weaker level |
| Parser.ParseLeadingSign | src/expression.cpp:391-398 | a leading + or - reads as the constant 0 combined with the rest |
| Parser.ParseGroup | src/expression.cpp:450-459 | a balanced group whose inside reads as q reads as (q - q) + q |
| Parser.ParseCall | src/expression.cpp:462-484 | sin, cos, exp or ln around balanced text reads as that function of the argument's reading |
| Parser.ParseLiteral | src/expression.cpp:486-500 | the decimal text of a non-negative number reads as that constant |
| Parser.ParseName | src/expression.cpp:502 | text with no space, parenthesis, operator or leading digit reads as the variable of that name |
| Reading.ParenEval | src/expression.cpp:455-457 | the group tree (q - q) + q evaluates like q, failures included |
| Reading.ReparsedEval | src/expression.cpp:450-459 | the read-back tree of a printed tree evaluates like the tree, failures included |
| Reading.ReparsedInjective | src/expression.cpp:450-459 | different trees are read back as different trees |
| Reading.PrintedAtomic | src/expression.cpp:200-282 | the printed form of a well-formed tree, without spaces, is balanced and has no operator at depth 0 |
| Reading.ParsePrinted | src/expression.cpp:364-503 | parsing the printed form of a well-formed tree gives the tree with every binary node wrapped in the group tree |
| Reading.PrintedEval | src/expression.cpp:104-107 | the printed form of a well-formed tree parses, and it evaluates like the tree under every context |
| Reading.PrintInjective | src/expression.cpp:104-107 | different well-formed trees print differently |
| Derivatives.DerivativeVariables | src/expression.cpp:160-362 | a derivative mentions no variable its tree does not |
| Derivatives.DerivativeOfFree | src/expression.cpp:182-188 | with respect to a variable absent from the tree, the derivative is 0 wherever it evaluates |
| Derivatives.DiffEval | src/expression.cpp:109-112 | the text of `diff` for a well-formed tree parses, and it evaluates like the derivative tree under every context |
| Derivatives.DiffReadsBack | src/expression.cpp:160-362 | the text of `diff`, without spaces, is atomic and reads as the derivative, node kind by node kind |
| Derivatives.SumDiffText | src/expression.cpp:205-226 | the sum and difference rules as text: "(dL op dR)" |
| Derivatives.MulDiffText | src/expression.cpp:241-245 | the product rule as text: L * dR + dL * R |
| Derivatives.DivDiffText | src/expression.cpp:264-269 | the quotient rule as text: (dL * R - L * dR) / (R ^ 2) |
| Derivatives.PowDiffText | src/expression.cpp:284-290 | the power rule as text, with the exponent taken as a constant: R * (L ^ (R - 1)) * dL |
| Derivatives.ChainDiffText | src/expression.cpp:305-308 | the chain rule as text for sin and exp: cos(X) * dX and exp(X) * dX |
| Derivatives.CosDiffText | src/expression.cpp:323-326 | the chain rule as text for cos: -sin(X) * dX |
| Derivatives.LnDiffText | src/expression.cpp:359-362 | the rule for ln as text: dX/X |
| Derivatives.SumDiffReads | src/expression.cpp:205-226 | the text of the sum or difference rule reads as the derivative tree |
| Derivatives.MulDiffReads | src/expression.cpp:241-245 | the text of the product rule reads as the derivative tree |
| Derivatives.DivDiffReads | src/expression.cpp:264-269 | the text of the quotient rule reads as the derivative tree |
| Derivatives.PowDiffReads | src/expression.cpp:284-290 | the text of the power rule reads as the derivative tree |
| Derivatives.ChainDiffReads | src/expression.cpp:305-308 | the text of the chain rule for sin and exp reads as the derivative tree |
| Derivatives.CosDiffReads | src/expression.cpp:323-326 | the text of the rule for cos reads as 0 - sin(x) * dx |
| Derivatives.LnDiffReads | src/expression.cpp:359-362 | the text of the rule for ln reads as dx / x |
| Handle.Expression.Empty | include/expression.hpp:25 | a default-constructed handle points at nothing |
| Handle.Expression.FromImpl | src/expression.cpp:11-12 | the private constructor points at the given tree |
| Handle.Expression.FromValue | src/expression.cpp:14-15 | the constructor from a value points at that constant |
| Handle.Expression.Copy | src/expression.cpp:17-18 | a copy shares the original's tree |
| Handle.Expression.Move | src/expression.cpp:20-23 | a move takes the tree and leaves the source empty |
| Handle.Expression.FromText | src/expression.cpp:364-503 | parsing text succeeds exactly when `Parse` does, with a fresh handle on that tree; otherwise it fails with a parenthesis mismatch |
| Handle.Expression.Assign | src/expression.cpp:25-32 | after copy assignment the handle shares the other's tree, self-assignment included |
| Handle.Expression.MoveAssign | src/expression.cpp:34-42 | move assignment takes the other's tree and empties it; self-assignment changes nothing |
| Handle.Expression.Apply | src/expression.cpp:44-97 | each binary operator gives a fresh handle on a new node over both operands' trees |
| Handle.Expression.ApplyAssign | src/expression.cpp:49-97 | each compound assignment rebinds the handle to the operator node over both old trees |
| Handle.Expression.Eval | src/expression.cpp:99-102 | the handle evaluates as its tree does |
| Handle.Expression.ToString | src/expression.cpp:104-107 | the handle prints as its tree does |
| Handle.Expression.Diff | src/expression.cpp:109-112 | the handle differentiates as its tree does |
| Handle.Apply | src/expression.cpp:114-132 | sin, cos, ln and exp give a fresh handle on the function node over the argument's tree |
| Handle.CopyKeepsOldTree | src/expression.cpp:49-53 | after `x += x`, a copy made before keeps the old tree, and x holds the sum of two old trees |
| Examples.ChainNestsRight | src/expression.cpp:369-399 | `1 + x + y` reads as 1 + (x + y) |
| Examples.SubtractionNestsRight | src/expression.cpp:391-398 | `10 - 2 - 3` reads as 10 - (2 - 3) and evaluates to 11 |
| Examples.ReadDigits | src/expression.cpp:486-500 | the texts 2, 3, 5 and 10 read as those constants |
| Examples.LeadingMinus | src/expression.cpp:391-398 | `-x` reads as 0 - x |
| Examples.UnclosedGroup | src/expression.cpp:401-403 | `(x + y` is a parenthesis mismatch |
| Examples.InsideOutName | src/expression.cpp:369-403 | only the final depth is checked, so ")x(" is accepted and reads as the variable named ")x(" |
| Examples.SignAfterOperator | src/expression.cpp:369-428 | a sign after another operator is a split: "2*-3" reads as (2 * e) - 3, with e the variable with the empty name |
| Examples.PrintSum | tests/test.cpp:340-343 | the text "x + y" is accepted, and the tree it reads as prints as "(x + y)" |
| Examples.DiffSum | tests/test.cpp:355-358 | the text "x + y" is accepted, and the derivative text of its tree with respect to x is "(1 + 0)" |
| Examples.DiffProduct | tests/test.cpp:415-418 | the text "1 * 1" is accepted, and the derivative text of its tree is "(1 * 0 + 0 * 1)" |
| Examples.DiffPower | tests/test.cpp:484-487 | the text "x ^ y" is accepted, and the derivative text of its tree with respect to x is "(y * (x ^ (y - 1)) * 1)" |
| Examples.EvalQuotient | tests/test.cpp:431-435 | the text "10 / 2" is accepted, and its tree evaluates to 5 |
| Examples.ZeroDivisorFirst | src/expression.cpp:250-257 | x / 0 fails with a division by zero even with x undefined, and 7 / -2 is -3 |
| Examples.NegativeConstantMisread | src/expression.cpp:151-158 | a negative constant prints with a leading minus, so "(-5 + 3)" (worth -2) reads back as a tree worth -8 |

## Left out

- Numeric types other than `int`: the `long double` and `std::complex`
  instantiations, and with them the tests whose values or texts rely on
  floating point (such as a printed `0.000000`).
- Evaluator.Eval: does not model 32-bit wrap-around or the undefined
  behaviour of signed overflow; integers are unbounded.
- Evaluator.Eval: `pow`, `sin`, `cos`, `log` and `exp` are parameters
  (the `Library` record), since their values are floating-point
  computations outside the model.
- Evaluator.Eval: the model evaluates the left operand first for
  `-`, `*` and `^` too. The source fixes that order only for `+`, where
  the two operands are evaluated in two separate statements. For `-`,
  `*` and `^` the two calls sit in one expression, and C++ leaves their
  order unspecified. Both orders fail on the same inputs but may report
  different errors.
- Evaluator.Eval: a division evaluates its divisor twice in the source;
  evaluation has no side effects, so the model evaluates it once.
- Scanning.LeadingDigits: `std::stod` also reads a decimal point, an
  exponent, hexadecimal, infinities and NaN, and throws on a value out of
  range. The model reads only the leading decimal digits. For a literal
  whose value fits in `int`, that agrees with the source's conversion to
  `int` when the literal is plain or decimal ("1.5" is 1). It disagrees
  for exponents ("1e3" is 1000 in the source and 1 here) and for
  hexadecimal ("0x10" is 16 in the source and 0 here). A literal above
  the `int` range, such as "3000000000", makes the source's conversion
  undefined behaviour, while the model reads the full number.
- Parser.ScanFor: the source does not reset its depth counter between
  the three scans. The model starts each scan at depth 0, which is the
  same, since a later scan only runs when the previous one ended at
  depth 0.
- Handle.Expression.Apply, Handle.Expression.ApplyAssign, Handle.Apply:
  the source accepts an empty (default-constructed or moved-from) handle
  as an operand or argument and builds the node over the null pointer;
  only a later `eval`, `to_string` or `diff` of that node dereferences
  it. A tree here has no empty child, so the model leaves nodes over
  empty handles out and requires every operand to hold a tree.
- Reference counting of `std::shared_ptr`: trees are immutable values,
  so sharing is not observable and is not modelled.
- Reading.ParsePrinted: stated for well-formed trees only: constants
  are non-negative, and variable names are non-empty and satisfy
  `IsName` (no space, parenthesis or operator character, no leading
  digit). A negative constant prints with a leading minus that reads back
  differently, as Examples.NegativeConstantMisread shows. The parser
  itself produces names outside this set, such as the empty name in
  Examples.SignAfterOperator and ")x(" in Examples.InsideOutName. The same
  restriction holds for Reading.PrintedEval, Reading.PrintInjective,
  Derivatives.DiffEval and Derivatives.DiffReadsBack.
- The command-line differentiator: src/differentiator.cpp is not part
  of this model.

=== FILE: derivative.dfy ===
/**
 * What the text `diff` produces means. `Derivative` differentiates a tree
 * into a tree by the same rules; reading the text of `diff` back with the
 * parser gives a tree that evaluates exactly like it.
 */
module Derivatives {
  import opened Tree
  import opened Printer
  import opened Evaluator
  import opened Scanning
  import opened Parser
  import opened Reading

  /** The derivative of `e` with respect to `v`, as a tree: the sum,
      difference, product and quotient rules, the power rule with the
      exponent taken as constant, and the chain rule for the functions
      (the derivative of cos x is 0 - sin x * x'). */
  function Derivative(e: Expr, v: string): Expr {
    match e
    case Const(_) => Const(0)
    case Var(x) => Const(if x == v then 1 else 0)
    case Bin(op, l, r) =>
      var dl, dr := Derivative(l, v), Derivative(r, v);
      (match op
       case Add => Bin(Add, dl, dr)
       case Sub => Bin(Sub, dl, dr)
       case Mul => Bin(Add, Bin(Mul, l, dr), Bin(Mul, dl, r))
       case Div => Bin(Div, Bin(Sub, Bin(Mul, dl, r), Bin(Mul, l, dr)), Bin(Pow, r, Const(2)))
       case Pow => Bin(Mul, r, Bin(Mul, Bin(Pow, l, Bin(Sub, r, Const(1))), dl)))
    case Un(f, x) =>
      var dx := Derivative(x, v);
      match f
      case Sin => Bin(Mul, Un(Cos, x), dx)
      case Cos => Bin(Sub, Const(0), Bin(Mul, Un(Sin, x), dx))
      case Exp => Bin(Mul, Un(Exp, x), dx)
      case Ln => Bin(Div, dx, x)
  }

  /** The derivative mentions no variable the tree does not. */
  lemma {:induction false} DerivativeVariables(e: Expr, v: string)
    ensures Variables(Derivative(e, v)) <= Variables(e)
  {
    match e
    case Const(_) =>
    case Var(_) =>
    case Bin(op, l, r) =>
      DerivativeVariables(l, v);
      DerivativeVariables(r, v);
      var dl, dr := Derivative(l, v), Derivative(r, v);
      var vs := Variables(l) + Variables(r);
      match op {
      case Add =>
      case Sub =>
      case Mul =>
        assert Variables(Bin(Mul, l, dr)) <= vs;
        assert Variables(Bin(Mul, dl, r)) <= vs;
      case Div =>
        assert Variables(Bin(Mul, dl, r)) <= vs;
        assert Variables(Bin(Mul, l, dr)) <= vs;
        assert Variables(Bin(Pow, r, Const(2))) <= vs;
      case Pow =>
        var m := Bin(Sub, r, Const(1));
        assert Variables(m) <= vs;
        assert Variables(Bin(Pow, l, m)) <= vs;
        assert Variables(Bin(Mul, Bin(Pow, l, m), dl)) <= vs;
      }
    case Un(f, x) =>
      DerivativeVariables(x, v);
      var dx := Derivative(x, v);
      match f {
      case Sin => assert Variables(Bin(Mul, Un(Cos, x), dx)) <= Variables(x);
      case Cos => assert Variables(Bin(Mul, Un(Sin, x), dx)) <= Variables(x);
      case Exp => assert Variables(Bin(Mul, Un(Exp, x), dx)) <= Variables(x);
      case Ln =>
      }
  }

  /** With respect to a variable that does not occur in the tree, the
      derivative is 0 wherever it evaluates. */
  lemma {:induction false} DerivativeOfFree(e: Expr, v: string, ctx: map<string, int>, lib: Library)
    requires v !in Variables(e)
    ensures ZeroWhereDefined(Derivative(e, v), ctx, lib)
  {
    match e
    case Const(_) =>
    case Var(_) =>
    case Bin(op, l, r) =>
      var dl, dr := Derivative(l, v), Derivative(r, v);
      DerivativeOfFree(l, v, ctx, lib);
      DerivativeOfFree(r, v, ctx, lib);
      match op {
      case Add => ZeroSum(Add, dl, dr, ctx, lib);
      case Sub => ZeroSum(Sub, dl, dr, ctx, lib);
      case Mul =>
        ZeroProduct(l, dr, ctx, lib);
        ZeroProduct(r, dl, ctx, lib);
        ZeroSum(Add, Bin(Mul, l, dr), Bin(Mul, dl, r), ctx, lib);
      case Div =>
        ZeroProduct(r, dl, ctx, lib);
        ZeroProduct(l, dr, ctx, lib);
        ZeroSum(Sub, Bin(Mul, dl, r), Bin(Mul, l, dr), ctx, lib);
        ZeroQuotient(Bin(Sub, Bin(Mul, dl, r), Bin(Mul, l, dr)), Bin(Pow, r, Const(2)), ctx, lib);
      case Pow =>
        var p := Bin(Pow, l, Bin(Sub, r, Const(1)));
        ZeroProduct(p, dl, ctx, lib);
        ZeroProduct(r, Bin(Mul, p, dl), ctx, lib);
      }
    case Un(f, x) =>
      var dx := Derivative(x, v);
      DerivativeOfFree(x, v, ctx, lib);
      match f {
      case Sin => ZeroProduct(Un(Cos, x), dx, ctx, lib);
      case Cos =>
        ZeroProduct(Un(Sin, x), dx, ctx, lib);
        ZeroSum(Sub, Const(0), Bin(Mul, Un(Sin, x), dx), ctx, lib);
      case Exp => ZeroProduct(Un(Exp, x), dx, ctx, lib);
      case Ln => ZeroQuotient(dx, x, ctx, lib);
      }
  }

  /** `d` evaluates to 0, or fails. */
  ghost predicate ZeroWhereDefined(d: Expr, ctx: map<string, int>, lib: Library) {
    Eval(d, ctx, lib).Success? ==> Eval(d, ctx, lib).value == 0
  }

  lemma ZeroSum(op: BinOp, a: Expr, b: Expr, ctx: map<string, int>, lib: Library)
    requires op == Add || op == Sub
    requires ZeroWhereDefined(a, ctx, lib) && ZeroWhereDefined(b, ctx, lib)
    ensures ZeroWhereDefined(Bin(op, a, b), ctx, lib)
  {
  }

  /** With one factor 0 where defined, so is the product, in either
      order. */
  lemma ZeroProduct(a: Expr, b: Expr, ctx: map<string, int>, lib: Library)
    requires ZeroWhereDefined(b, ctx, lib)
    ensures ZeroWhereDefined(Bin(Mul, a, b), ctx, lib)
    ensures ZeroWhereDefined(Bin(Mul, b, a), ctx, lib)
  {
  }

  lemma ZeroQuotient(a: Expr, b: Expr, ctx: map<string, int>, lib: Library)
    requires ZeroWhereDefined(a, ctx, lib)
    ensures ZeroWhereDefined(Bin(Div, a, b), ctx, lib)
  {
    if Eval(Bin(Div, a, b), ctx, lib).Success? {
      QuotientOfZero(Eval(b, ctx, lib).value);
    }
  }

  lemma QuotientOfZero(b: int)
    requires b != 0
    ensures TruncDiv(0, b) == 0
  {
  }

  // -----------------------------------------------------------------------
  // Text that reads as a tree
  // -----------------------------------------------------------------------

  /** Text without spaces, with balanced parentheses, that the parser
      reads as a tree evaluating like `d`. */
  ghost predicate ReadsBalanced(s: string, d: Expr, ctx: map<string, int>, lib: Library) {
    && s != [] && ' ' !in s && Balanced(s)
    && Parse(s).Success? && Eval(Parse(s).value, ctx, lib) == Eval(d, ctx, lib)
  }

  /** Such text with no + or - at depth 0: a product or an atom. */
  ghost predicate ReadsTerm(s: string, d: Expr, ctx: map<string, int>, lib: Library) {
    ReadsBalanced(s, d, ctx, lib) && FirstTop(s, AddOps) == None
  }

  /** Such text with no operator at depth 0. */
  ghost predicate ReadsAtom(s: string, d: Expr, ctx: map<string, int>, lib: Library) {
    ReadsBalanced(s, d, ctx, lib) && Atomic(s)
  }

  /** Evaluation looks at the operands only through their outcomes. */
  lemma EvalCongruent(op: BinOp, p: Expr, q: Expr, x: Expr, y: Expr, ctx: map<string, int>, lib: Library)
    requires Eval(p, ctx, lib) == Eval(x, ctx, lib) && Eval(q, ctx, lib) == Eval(y, ctx, lib)
    ensures Eval(Bin(op, p, q), ctx, lib) == Eval(Bin(op, x, y), ctx, lib)
  {
  }

  lemma AtomIsTerm(s: string, d: Expr, ctx: map<string, int>, lib: Library)
    requires ReadsAtom(s, d, ctx, lib)
    ensures ReadsTerm(s, d, ctx, lib)
  {
    AtomicUnsplit(s, AddOps);
  }

  /** Parentheses around balanced text make an atom that reads the same. */
  lemma GroupReads(s: string, d: Expr, ctx: map<string, int>, lib: Library)
    requires ReadsBalanced(s, d, ctx, lib)
    ensures ReadsAtom("(" + s + ")", d, ctx, lib)
  {
    GroupAtom(s);
    ParenEval(Parse(s).value, ctx, lib);
  }

  /** Two terms joined by + or -. */
  lemma SumReads(a: string, c: char, b: string, x: Expr, y: Expr, ctx: map<string, int>, lib: Library)
    requires c in AddOps && ReadsTerm(a, x, ctx, lib) && ReadsTerm(b, y, ctx, lib)
    ensures ReadsBalanced(a + [c] + b, Bin(OpOf(c), x, y), ctx, lib)
  {
    ParseJoin(a, c, b);
    Single(c);
    NonnegConcat(a, [c]);
    NonnegConcat(a + [c], b);
    DepthConcat(a, [c]);
    DepthConcat(a + [c], b);
    EvalCongruent(OpOf(c), Parse(a).value, Parse(b).value, x, y, ctx, lib);
  }

  /** An atom and a term joined by * or /, or two atoms joined by ^. */
  lemma ProductReads(a: string, c: char, b: string, x: Expr, y: Expr, ctx: map<string, int>, lib: Library)
    requires c in MulOps + PowOps && ReadsAtom(a, x, ctx, lib) && ReadsTerm(b, y, ctx, lib)
    requires c in PowOps ==> Atomic(b)
    ensures ReadsTerm(a + [c] + b, Bin(OpOf(c), x, y), ctx, lib)
  {
    AtomicUnsplit(a, AddOps);
    AtomicUnsplit(a, MulOps);
    AtomicUnsplit(a, PowOps);
    if c in PowOps {
      AtomicUnsplit(b, MulOps);
    }
    ParseJoin(a, c, b);
    Single(c);
    NonnegConcat(a, [c]);
    NonnegConcat(a + [c], b);
    DepthConcat(a, [c]);
    DepthConcat(a + [c], b);
    FirstTopJoin(a, c, b, AddOps);
    EvalCongruent(OpOf(c), Parse(a).value, Parse(b).value, x, y, ctx, lib);
  }

  /** A term after a leading minus reads as 0 minus the term. */
  lemma NegationReads(b: string, y: Expr, ctx: map<string, int>, lib: Library)
    requires ReadsTerm(b, y, ctx, lib)
    ensures ReadsBalanced(['-'] + b, Bin(Sub, Const(0), y), ctx, lib)
  {
    ParseLeadingSign('-', b);
    Single('-');
    NonnegConcat(['-'], b);
    DepthConcat(['-'], b);
  }

  /** A call around an atom. */
  lemma CallReads(f: UnFn, s: string, x: Expr, ctx: map<string, int>, lib: Library)
    requires ReadsAtom(s, x, ctx, lib)
    ensures ReadsAtom(FnName(f) + ("(" + s + ")"), Un(f, x), ctx, lib)
  {
    var t := FnName(f) + ("(" + s + ")");
    CallAtomic(f, s);
    FnNameAtomic(f);
    assert ' ' !in t;
    ParseAtomic(t);
    CallAtom(f, s);
  }

  lemma LiteralReads(n: nat, ctx: map<string, int>, lib: Library)
    ensures ReadsAtom(NatToString(n), Const(n), ctx, lib)
  {
    var s := NatToString(n);
    assert forall c :: c in s ==> IsDigit(c);
    PlainIsAtomic(s);
    ParseLiteral(n);
  }

  /** The printed form of a well-formed tree reads as the tree. */
  lemma PrintedReads(e: Expr, ctx: map<string, int>, lib: Library)
    requires WellFormed(e)
    ensures ReadsAtom(Squeezed(e), e, ctx, lib)
  {
    PrintedAtomic(e);
    ParsePrinted(e);
    ParseIgnoresSpaces(ToString(e));
    ReparsedEval(e, ctx, lib);
  }

  // -----------------------------------------------------------------------
  // The text of diff without its spaces
  //
  // Each rule's text is handled in three small steps, each its own lemma
  // so that no proof has to unfold `Diff` and regroup a long
  // concatenation at once: a *Layout lemma only regroups the pieces of
  // the text `Diff` writes (a bare concatenation identity), a *Spaces
  // lemma deletes the spaces from that grouping, and a *DiffText lemma
  // puts the two together for one node kind.
  // -----------------------------------------------------------------------

  function SqueezedDiff(e: Expr, v: string): string {
    RemoveSpaces(Diff(e, v))
  }

  lemma SumDiffText(op: BinOp, l: Expr, r: Expr, v: string)
    requires op == Add || op == Sub
    ensures SqueezedDiff(Bin(op, l, r), v)
      == "(" + (SqueezedDiff(l, v) + [Symbol(op)] + SqueezedDiff(r, v)) + ")"
  {
    var dl, dr := Diff(l, v), Diff(r, v);
    if op == Add {
      assert Diff(Bin(Add, l, r), v) == "(" + dl + " + " + dr + ")";
      SumLayout(dl, '+', " + ", dr);
    } else {
      assert Diff(Bin(Sub, l, r), v) == "(" + dl + " - " + dr + ")";
      SumLayout(dl, '-', " - ", dr);
    }
    SumSpaces(dl, Symbol(op), dr);
  }

  lemma SumLayout(a: string, c: char, sym: string, b: string)
    requires sym == " " + [c] + " "
    ensures "(" + a + sym + b + ")" == "(" + a + " " + [c] + " " + b + ")"
  {
  }

  /** "(a c b)" without its spaces. */
  lemma SumSpaces(a: string, c: char, b: string)
    requires c != ' '
    ensures RemoveSpaces("(" + a + " " + [c] + " " + b + ")") == "(" + (RemoveSpaces(a) + [c] + RemoveSpaces(b)) + ")"
  {
    var x := a + " " + [c] + " " + b;
    assert "(" + a + " " + [c] + " " + b + ")" == "(" + x + ")";
    GroupSpaces(x);
    SpacedSymbol(a, c, b);
  }

  lemma MulDiffText(l: Expr, r: Expr, v: string)
    ensures SqueezedDiff(Bin(Mul, l, r), v)
      == "(" + ((Squeezed(l) + ['*'] + SqueezedDiff(r, v)) + ['+'] + (SqueezedDiff(l, v) + ['*'] + Squeezed(r))) + ")"
  {
    ProductRuleSpaces(ToString(l), Diff(r, v), Diff(l, v), ToString(r));
  }

  lemma ProductRuleLayout(l: string, dr: string, dl: string, r: string)
    ensures "(" + l + " * " + dr + " + " + dl + " * " + r + ")"
      == "(" + ((l + " " + ['*'] + " " + dr) + " " + ['+'] + " " + (dl + " " + ['*'] + " " + r)) + ")"
  {
  }

  /** The product rule's text, without its spaces. */
  lemma ProductRuleSpaces(l: string, dr: string, dl: string, r: string)
    ensures RemoveSpaces("(" + l + " * " + dr + " + " + dl + " * " + r + ")")
      == "(" + ((RemoveSpaces(l) + ['*'] + RemoveSpaces(dr)) + ['+'] + (RemoveSpaces(dl) + ['*'] + RemoveSpaces(r))) + ")"
  {
    var a := l + " " + ['*'] + " " + dr;
    var b := dl + " " + ['*'] + " " + r;
    var x := a + " " + ['+'] + " " + b;
    ProductRuleLayout(l, dr, dl, r);
    assert RemoveSpaces(a) == RemoveSpaces(l) + ['*'] + RemoveSpaces(dr) by {
      SpacedSymbol(l, '*', dr);
    }
    assert RemoveSpaces(b) == RemoveSpaces(dl) + ['*'] + RemoveSpaces(r) by {
      SpacedSymbol(dl, '*', r);
    }
    assert RemoveSpaces(x) == RemoveSpaces(a) + ['+'] + RemoveSpaces(b) by {
      SpacedSymbol(a, '+', b);
    }
    GroupSpaces(x);
  }

  lemma DivDiffText(l: Expr, r: Expr, v: string)
    ensures SqueezedDiff(Bin(Div, l, r), v)
      == "(" + (("(" + ((SqueezedDiff(l, v) + ['*'] + Squeezed(r)) + ['-'] + (Squeezed(l) + ['*'] + SqueezedDiff(r, v))) + ")")
        + ['/'] + ("(" + (Squeezed(r) + ['^'] + "2") + ")")) + ")"
  {
    QuotientSpaces(Diff(l, v), ToString(r), ToString(l), Diff(r, v));
  }

  lemma QuotientLayout(dl: string, r: string, l: string, dr: string)
    ensures "((" + dl + " * " + r + " - " + l + " * " + dr + ") / (" + r + " ^ 2))"
      == "(" + (("(" + ((dl + " " + ['*'] + " " + r) + " " + ['-'] + " " + (l + " " + ['*'] + " " + dr)) + ")")
        + " " + ['/'] + " " + ("(" + (r + " " + ['^'] + " " + "2") + ")")) + ")"
  {
  }

  /** The quotient rule's text, without its spaces. */
  lemma QuotientSpaces(dl: string, r: string, l: string, dr: string)
    ensures RemoveSpaces("((" + dl + " * " + r + " - " + l + " * " + dr + ") / (" + r + " ^ 2))")
      == "(" + (("(" + ((RemoveSpaces(dl) + ['*'] + RemoveSpaces(r)) + ['-'] + (RemoveSpaces(l) + ['*'] + RemoveSpaces(dr))) + ")")
        + ['/'] + ("(" + (RemoveSpaces(r) + ['^'] + "2") + ")")) + ")"
  {
    var a := dl + " " + ['*'] + " " + r;
    var b := l + " " + ['*'] + " " + dr;
    var n := a + " " + ['-'] + " " + b;
    var d := r + " " + ['^'] + " " + "2";
    var x := ("(" + n + ")") + " " + ['/'] + " " + ("(" + d + ")");
    var n', d' := (RemoveSpaces(dl) + ['*'] + RemoveSpaces(r)) + ['-'] + (RemoveSpaces(l) + ['*'] + RemoveSpaces(dr)),
      RemoveSpaces(r) + ['^'] + "2";
    QuotientLayout(dl, r, l, dr);
    assert RemoveSpaces(n) == n' by {
      SpacedSymbol(a, '-', b);
      SpacedSymbol(dl, '*', r);
      SpacedSymbol(l, '*', dr);
    }
    assert RemoveSpaces(d) == d' by {
      SpacedSymbol(r, '^', "2");
      NoBlank("2");
    }
    assert RemoveSpaces(x) == ("(" + n' + ")") + ['/'] + ("(" + d' + ")") by {
      SpacedSymbol("(" + n + ")", '/', "(" + d + ")");
      GroupSpaces(n);
      GroupSpaces(d);
    }
    GroupSpaces(x);
  }

  lemma PowDiffText(l: Expr, r: Expr, v: string)
    ensures SqueezedDiff(Bin(Pow, l, r), v)
      == "(" + (Squeezed(r) + ['*'] + (("(" + (Squeezed(l) + ['^'] + Squeezed(Bin(Sub, r, Const(1)))) + ")")
        + ['*'] + SqueezedDiff(l, v))) + ")"
  {
    PowerRuleSpaces(ToString(r), ToString(l), ToString(Bin(Sub, r, Const(1))), Diff(l, v));
  }

  lemma PowerRuleLayout(r: string, l: string, m: string, dl: string)
    ensures "(" + r + " * (" + l + " ^ " + m + ") * " + dl + ")"
      == "(" + (r + " " + ['*'] + " " + (("(" + (l + " " + ['^'] + " " + m) + ")") + " " + ['*'] + " " + dl)) + ")"
  {
  }

  /** The power rule's text, without its spaces. */
  lemma PowerRuleSpaces(r: string, l: string, m: string, dl: string)
    ensures RemoveSpaces("(" + r + " * (" + l + " ^ " + m + ") * " + dl + ")")
      == "(" + (RemoveSpaces(r) + ['*'] + (("(" + (RemoveSpaces(l) + ['^'] + RemoveSpaces(m)) + ")")
        + ['*'] + RemoveSpaces(dl))) + ")"
  {
    var z := l + " " + ['^'] + " " + m;
    var y := ("(" + z + ")") + " " + ['*'] + " " + dl;
    var x := r + " " + ['*'] + " " + y;
    var z' := RemoveSpaces(l) + ['^'] + RemoveSpaces(m);
    PowerRuleLayout(r, l, m, dl);
    assert RemoveSpaces("(" + z + ")") == "(" + z' + ")" by {
      SpacedSymbol(l, '^', m);
      GroupSpaces(z);
    }
    assert RemoveSpaces(y) == ("(" + z' + ")") + ['*'] + RemoveSpaces(dl) by {
      SpacedSymbol("(" + z + ")", '*', dl);
    }
    assert RemoveSpaces(x) == RemoveSpaces(r) + ['*'] + RemoveSpaces(y) by {
      SpacedSymbol(r, '*', y);
    }
    GroupSpaces(x);
  }

  /** The chain rule texts of sin and exp: the derivative function's call
      times the argument's derivative. */
  lemma ChainDiffText(f: UnFn, g: UnFn, x: Expr, v: string)
    requires (f == Sin && g == Cos) || (f == Exp && g == Exp)
    ensures SqueezedDiff(Un(f, x), v)
      == "(" + ((FnName(g) + ("(" + Squeezed(x) + ")")) + ['*'] + SqueezedDiff(x, v)) + ")"
  {
    var name, px, dx := FnName(g), ToString(x), Diff(x, v);
    CallDiffText(f, g, x, v);
    FnNameAtomic(g);
    ChainRuleSpaces(name, px, dx);
  }

  lemma CallDiffText(f: UnFn, g: UnFn, x: Expr, v: string)
    requires (f == Sin && g == Cos) || (f == Exp && g == Exp)
    ensures Diff(Un(f, x), v) == "(" + FnName(g) + "(" + ToString(x) + ") * " + Diff(x, v) + ")"
  {
    if f == Sin {
      SineDiffText(x, v);
    } else {
      ExpDiffText(x, v);
    }
  }

  lemma SineDiffText(x: Expr, v: string)
    ensures Diff(Un(Sin, x), v) == "(" + FnName(Cos) + "(" + ToString(x) + ") * " + Diff(x, v) + ")"
  {
  }

  lemma ExpDiffText(x: Expr, v: string)
    ensures Diff(Un(Exp, x), v) == "(" + FnName(Exp) + "(" + ToString(x) + ") * " + Diff(x, v) + ")"
  {
  }

  lemma ChainRuleLayout(name: string, x: string, dx: string)
    ensures "(" + name + "(" + x + ") * " + dx + ")"
      == "(" + ((name + ("(" + x + ")")) + " " + ['*'] + " " + dx) + ")"
  {
  }

  /** A call times a derivative, in parentheses, without its spaces. */
  lemma ChainRuleSpaces(name: string, x: string, dx: string)
    requires ' ' !in name
    ensures RemoveSpaces("(" + name + "(" + x + ") * " + dx + ")")
      == "(" + ((name + ("(" + RemoveSpaces(x) + ")")) + ['*'] + RemoveSpaces(dx)) + ")"
  {
    var c := name + ("(" + x + ")");
    var y := c + " " + ['*'] + " " + dx;
    ChainRuleLayout(name, x, dx);
    assert RemoveSpaces(c) == name + ("(" + RemoveSpaces(x) + ")") by {
      RemoveSpacesConcat(name, "(" + x + ")");
      RemoveSpacesKeeps(name);
      GroupSpaces(x);
    }
    assert RemoveSpaces(y) == RemoveSpaces(c) + ['*'] + RemoveSpaces(dx) by {
      SpacedSymbol(c, '*', dx);
    }
    GroupSpaces(y);
  }

  lemma CosDiffText(x: Expr, v: string)
    ensures SqueezedDiff(Un(Cos, x), v)
      == "(" + (['-'] + ((FnName(Sin) + ("(" + Squeezed(x) + ")")) + ['*'] + SqueezedDiff(x, v))) + ")"
  {
    var px, dx := ToString(x), Diff(x, v);
    assert Diff(Un(Cos, x), v) == "(" + "-sin" + "(" + px + ") * " + dx + ")";
    ChainRuleSpaces("-sin", px, dx);
    NegatedCallLayout(RemoveSpaces(px), RemoveSpaces(dx));
  }

  lemma NegatedCallLayout(x: string, dx: string)
    ensures "(" + (("-sin" + ("(" + x + ")")) + ['*'] + dx) + ")"
      == "(" + (['-'] + ((FnName(Sin) + ("(" + x + ")")) + ['*'] + dx)) + ")"
  {
  }

  lemma LnDiffText(x: Expr, v: string)
    ensures SqueezedDiff(Un(Ln, x), v) == "(" + (SqueezedDiff(x, v) + ['/'] + Squeezed(x)) + ")"
  {
    RatioSpaces(Diff(x, v), ToString(x));
  }

  /** "(dx/x)" without its spaces. */
  lemma RatioSpaces(dx: string, x: string)
    ensures RemoveSpaces("(" + dx + "/" + x + ")") == "(" + (RemoveSpaces(dx) + ['/'] + RemoveSpaces(x)) + ")"
  {
    var y := dx + ['/'] + x;
    assert "(" + dx + "/" + x + ")" == "(" + y + ")";
    assert RemoveSpaces(y) == RemoveSpaces(dx) + ['/'] + RemoveSpaces(x) by {
      RemoveSpacesConcat(dx + ['/'], x);
      RemoveSpacesConcat(dx, ['/']);
      NoBlank(['/']);
    }
    GroupSpaces(y);
  }

  // The rules of Derivative one at a time. Each only unfolds `Derivative`
  // by one step; the *DiffReads lemmas below call them instead of
  // unfolding `Derivative` among many other facts.

  lemma SumRule(op: BinOp, l: Expr, r: Expr, v: string)
    requires op == Add || op == Sub
    ensures Derivative(Bin(op, l, r), v) == Bin(op, Derivative(l, v), Derivative(r, v))
  {
  }

  lemma ProductRule(l: Expr, r: Expr, v: string)
    ensures Derivative(Bin(Mul, l, r), v)
      == Bin(Add, Bin(Mul, l, Derivative(r, v)), Bin(Mul, Derivative(l, v), r))
  {
  }

  lemma QuotientRule(l: Expr, r: Expr, v: string)
    ensures Derivative(Bin(Div, l, r), v)
      == Bin(Div, Bin(Sub, Bin(Mul, Derivative(l, v), r), Bin(Mul, l, Derivative(r, v))), Bin(Pow, r, Const(2)))
  {
  }

  lemma PowerRule(l: Expr, r: Expr, v: string)
    ensures Derivative(Bin(Pow, l, r), v)
      == Bin(Mul, r, Bin(Mul, Bin(Pow, l, Bin(Sub, r, Const(1))), Derivative(l, v)))
  {
  }

  lemma ChainRule(f: UnFn, g: UnFn, x: Expr, v: string)
    requires (f == Sin && g == Cos) || (f == Exp && g == Exp)
    ensures Derivative(Un(f, x), v) == Bin(Mul, Un(g, x), Derivative(x, v))
  {
  }

  lemma CosineRule(x: Expr, v: string)
    ensures Derivative(Un(Cos, x), v) == Bin(Sub, Const(0), Bin(Mul, Un(Sin, x), Derivative(x, v)))
  {
  }

  lemma LogarithmRule(x: Expr, v: string)
    ensures Derivative(Un(Ln, x), v) == Bin(Div, Derivative(x, v), x)
  {
  }

  // -----------------------------------------------------------------------
  // The text of diff reads as the derivative
  // -----------------------------------------------------------------------

  /** The text `diff` produces for a well-formed tree, parsed, evaluates
      like the derivative tree, failures included, under every context:
      the textual rules and the tree rules agree. */
  lemma DiffEval(e: Expr, v: string, ctx: map<string, int>, lib: Library)
    requires WellFormed(e)
    ensures Parse(Diff(e, v)).Success?
    ensures Eval(Parse(Diff(e, v)).value, ctx, lib) == Eval(Derivative(e, v), ctx, lib)
  {
    DiffReadsBack(e, v, ctx, lib);
    ParseIgnoresSpaces(Diff(e, v));
  }

  /** The text of `diff`, without its spaces, is atomic and reads as the
      derivative. */
  lemma {:induction false} DiffReadsBack(e: Expr, v: string, ctx: map<string, int>, lib: Library)
    requires WellFormed(e)
    ensures ReadsAtom(SqueezedDiff(e, v), Derivative(e, v), ctx, lib)
  {
    match e
    case Const(_) =>
      ConstantDiffReads(0, e, v, ctx, lib);
    case Var(x) =>
      ConstantDiffReads(if x == v then 1 else 0, e, v, ctx, lib);
    case Bin(op, l, r) =>
      DiffReadsBack(l, v, ctx, lib);
      DiffReadsBack(r, v, ctx, lib);
      PrintedReads(l, ctx, lib);
      PrintedReads(r, ctx, lib);
      match op {
      case Add => SumDiffReads(Add, l, r, v, ctx, lib);
      case Sub => SumDiffReads(Sub, l, r, v, ctx, lib);
      case Mul => MulDiffReads(l, r, v, ctx, lib);
      case Div => DivDiffReads(l, r, v, ctx, lib);
      case Pow => PowDiffReads(l, r, v, ctx, lib);
      }
    case Un(f, x) =>
      DiffReadsBack(x, v, ctx, lib);
      PrintedReads(x, ctx, lib);
      match f {
      case Sin => ChainDiffReads(Sin, Cos, x, v, ctx, lib);
      case Exp => ChainDiffReads(Exp, Exp, x, v, ctx, lib);
      case Cos => CosDiffReads(x, v, ctx, lib);
      case Ln => LnDiffReads(x, v, ctx, lib);
      }
  }

  lemma ConstantDiffReads(n: nat, e: Expr, v: string, ctx: map<string, int>, lib: Library)
    requires n < 2 && (e.Const? || e.Var?)
    requires Diff(e, v) == NatToString(n) && Derivative(e, v) == Const(n)
    ensures ReadsAtom(SqueezedDiff(e, v), Derivative(e, v), ctx, lib)
  {
    LiteralReads(n, ctx, lib);
    NoBlank(NatToString(n));
  }

  lemma SumDiffReads(op: BinOp, l: Expr, r: Expr, v: string, ctx: map<string, int>, lib: Library)
    requires op == Add || op == Sub
    requires ReadsAtom(SqueezedDiff(l, v), Derivative(l, v), ctx, lib)
    requires ReadsAtom(SqueezedDiff(r, v), Derivative(r, v), ctx, lib)
    ensures ReadsAtom(SqueezedDiff(Bin(op, l, r), v), Derivative(Bin(op, l, r), v), ctx, lib)
  {
    SumDiffText(op, l, r, v);
    SumRule(op, l, r, v);
    SumRuleReads(op, SqueezedDiff(l, v), SqueezedDiff(r, v), Derivative(l, v), Derivative(r, v), ctx, lib);
  }

  /** "(dl+dr)" or "(dl-dr)" read from its parts. */
  lemma SumRuleReads(op: BinOp, dl: string, dr: string, dl': Expr, dr': Expr, ctx: map<string, int>, lib: Library)
    requires op == Add || op == Sub
    requires ReadsAtom(dl, dl', ctx, lib) && ReadsAtom(dr, dr', ctx, lib)
    ensures ReadsAtom("(" + (dl + [Symbol(op)] + dr) + ")", Bin(op, dl', dr'), ctx, lib)
  {
    OpOfSymbol(op);
    AtomIsTerm(dl, dl', ctx, lib);
    AtomIsTerm(dr, dr', ctx, lib);
    SumReads(dl, Symbol(op), dr, dl', dr', ctx, lib);
    GroupReads(dl + [Symbol(op)] + dr, Bin(op, dl', dr'), ctx, lib);
  }

  lemma MulDiffReads(l: Expr, r: Expr, v: string, ctx: map<string, int>, lib: Library)
    requires ReadsAtom(SqueezedDiff(l, v), Derivative(l, v), ctx, lib)
    requires ReadsAtom(SqueezedDiff(r, v), Derivative(r, v), ctx, lib)
    requires ReadsAtom(Squeezed(l), l, ctx, lib) && ReadsAtom(Squeezed(r), r, ctx, lib)
    ensures ReadsAtom(SqueezedDiff(Bin(Mul, l, r), v), Derivative(Bin(Mul, l, r), v), ctx, lib)
  {
    MulDiffText(l, r, v);
    ProductRule(l, r, v);
    ProductRuleReads(Squeezed(l), SqueezedDiff(r, v), SqueezedDiff(l, v), Squeezed(r),
      l, Derivative(r, v), Derivative(l, v), r, ctx, lib);
  }

  /** "(l*dr+dl*r)" read from its four parts. */
  lemma ProductRuleReads(pl: string, dr: string, dl: string, pr: string,
                         l: Expr, dr': Expr, dl': Expr, r: Expr, ctx: map<string, int>, lib: Library)
    requires ReadsAtom(pl, l, ctx, lib) && ReadsAtom(dr, dr', ctx, lib)
    requires ReadsAtom(dl, dl', ctx, lib) && ReadsAtom(pr, r, ctx, lib)
    ensures ReadsAtom("(" + ((pl + ['*'] + dr) + ['+'] + (dl + ['*'] + pr)) + ")",
      Bin(Add, Bin(Mul, l, dr'), Bin(Mul, dl', r)), ctx, lib)
  {
    assert ReadsTerm(pl + ['*'] + dr, Bin(Mul, l, dr'), ctx, lib) by {
      AtomIsTerm(dr, dr', ctx, lib);
      ProductReads(pl, '*', dr, l, dr', ctx, lib);
    }
    assert ReadsTerm(dl + ['*'] + pr, Bin(Mul, dl', r), ctx, lib) by {
      AtomIsTerm(pr, r, ctx, lib);
      ProductReads(dl, '*', pr, dl', r, ctx, lib);
    }
    SumReads(pl + ['*'] + dr, '+', dl + ['*'] + pr, Bin(Mul, l, dr'), Bin(Mul, dl', r), ctx, lib);
    GroupReads((pl + ['*'] + dr) + ['+'] + (dl + ['*'] + pr), Bin(Add, Bin(Mul, l, dr'), Bin(Mul, dl', r)), ctx, lib);
  }

  lemma DivDiffReads(l: Expr, r: Expr, v: string, ctx: map<string, int>, lib: Library)
    requires ReadsAtom(SqueezedDiff(l, v), Derivative(l, v), ctx, lib)
    requires ReadsAtom(SqueezedDiff(r, v), Derivative(r, v), ctx, lib)
    requires ReadsAtom(Squeezed(l), l, ctx, lib) && ReadsAtom(Squeezed(r), r, ctx, lib)
    ensures ReadsAtom(SqueezedDiff(Bin(Div, l, r), v), Derivative(Bin(Div, l, r), v), ctx, lib)
  {
    DivDiffText(l, r, v);
    QuotientRule(l, r, v);
    QuotientRuleReads(SqueezedDiff(l, v), Squeezed(r), Squeezed(l), SqueezedDiff(r, v),
      Derivative(l, v), r, l, Derivative(r, v), ctx, lib);
  }

  /** "((dl*r-l*dr)/(r^2))" read from its four parts. */
  lemma QuotientRuleReads(dl: string, pr: string, pl: string, dr: string,
                          dl': Expr, r: Expr, l: Expr, dr': Expr, ctx: map<string, int>, lib: Library)
    requires ReadsAtom(dl, dl', ctx, lib) && ReadsAtom(pr, r, ctx, lib)
    requires ReadsAtom(pl, l, ctx, lib) && ReadsAtom(dr, dr', ctx, lib)
    ensures ReadsAtom("(" + (("(" + ((dl + ['*'] + pr) + ['-'] + (pl + ['*'] + dr)) + ")") + ['/']
        + ("(" + (pr + ['^'] + "2") + ")")) + ")",
      Bin(Div, Bin(Sub, Bin(Mul, dl', r), Bin(Mul, l, dr')), Bin(Pow, r, Const(2))), ctx, lib)
  {
    var n := (dl + ['*'] + pr) + ['-'] + (pl + ['*'] + dr);
    var n' := Bin(Sub, Bin(Mul, dl', r), Bin(Mul, l, dr'));
    var d := pr + ['^'] + "2";
    NumeratorReads(dl, pr, pl, dr, dl', r, l, dr', ctx, lib);
    SquareReads(pr, r, ctx, lib);
    AtomIsTerm("(" + d + ")", Bin(Pow, r, Const(2)), ctx, lib);
    ProductReads("(" + n + ")", '/', "(" + d + ")", n', Bin(Pow, r, Const(2)), ctx, lib);
    GroupReads(("(" + n + ")") + ['/'] + ("(" + d + ")"), Bin(Div, n', Bin(Pow, r, Const(2))), ctx, lib);
  }

  /** "(dl*r-l*dr)". */
  lemma NumeratorReads(dl: string, pr: string, pl: string, dr: string,
                       dl': Expr, r: Expr, l: Expr, dr': Expr, ctx: map<string, int>, lib: Library)
    requires ReadsAtom(dl, dl', ctx, lib) && ReadsAtom(pr, r, ctx, lib)
    requires ReadsAtom(pl, l, ctx, lib) && ReadsAtom(dr, dr', ctx, lib)
    ensures ReadsAtom("(" + ((dl + ['*'] + pr) + ['-'] + (pl + ['*'] + dr)) + ")",
      Bin(Sub, Bin(Mul, dl', r), Bin(Mul, l, dr')), ctx, lib)
  {
    assert ReadsTerm(dl + ['*'] + pr, Bin(Mul, dl', r), ctx, lib) by {
      AtomIsTerm(pr, r, ctx, lib);
      ProductReads(dl, '*', pr, dl', r, ctx, lib);
    }
    assert ReadsTerm(pl + ['*'] + dr, Bin(Mul, l, dr'), ctx, lib) by {
      AtomIsTerm(dr, dr', ctx, lib);
      ProductReads(pl, '*', dr, l, dr', ctx, lib);
    }
    SumReads(dl + ['*'] + pr, '-', pl + ['*'] + dr, Bin(Mul, dl', r), Bin(Mul, l, dr'), ctx, lib);
    GroupReads((dl + ['*'] + pr) + ['-'] + (pl + ['*'] + dr), Bin(Sub, Bin(Mul, dl', r), Bin(Mul, l, dr')), ctx, lib);
  }

  /** "(r^2)". */
  lemma SquareReads(pr: string, r: Expr, ctx: map<string, int>, lib: Library)
    requires ReadsAtom(pr, r, ctx, lib)
    ensures ReadsAtom("(" + (pr + ['^'] + "2") + ")", Bin(Pow, r, Const(2)), ctx, lib)
  {
    assert NatToString(2) == "2";
    LiteralReads(2, ctx, lib);
    AtomIsTerm("2", Const(2), ctx, lib);
    ProductReads(pr, '^', "2", r, Const(2), ctx, lib);
    GroupReads(pr + ['^'] + "2", Bin(Pow, r, Const(2)), ctx, lib);
  }

  lemma PowDiffReads(l: Expr, r: Expr, v: string, ctx: map<string, int>, lib: Library)
    requires WellFormed(r)
    requires ReadsAtom(SqueezedDiff(l, v), Derivative(l, v), ctx, lib)
    requires ReadsAtom(Squeezed(l), l, ctx, lib) && ReadsAtom(Squeezed(r), r, ctx, lib)
    ensures ReadsAtom(SqueezedDiff(Bin(Pow, l, r), v), Derivative(Bin(Pow, l, r), v), ctx, lib)
  {
    var m := Bin(Sub, r, Const(1));
    PowDiffText(l, r, v);
    PowerRule(l, r, v);
    ExponentReads(r, ctx, lib);
    PowerRuleReads(Squeezed(r), Squeezed(l), Squeezed(m), SqueezedDiff(l, v), r, l, m, Derivative(l, v), ctx, lib);
  }

  /** The printed "(R - 1)" of the power rule reads as R - 1. */
  lemma ExponentReads(r: Expr, ctx: map<string, int>, lib: Library)
    requires WellFormed(r)
    ensures ReadsAtom(Squeezed(Bin(Sub, r, Const(1))), Bin(Sub, r, Const(1)), ctx, lib)
  {
    PrintedReads(Bin(Sub, r, Const(1)), ctx, lib);
  }

  /** "(r*(l^m)*dl)" read from its four parts. */
  lemma PowerRuleReads(pr: string, pl: string, pm: string, dl: string,
                       r: Expr, l: Expr, m: Expr, dl': Expr, ctx: map<string, int>, lib: Library)
    requires ReadsAtom(pr, r, ctx, lib) && ReadsAtom(pl, l, ctx, lib)
    requires ReadsAtom(pm, m, ctx, lib) && ReadsAtom(dl, dl', ctx, lib)
    ensures ReadsAtom("(" + (pr + ['*'] + (("(" + (pl + ['^'] + pm) + ")") + ['*'] + dl)) + ")",
      Bin(Mul, r, Bin(Mul, Bin(Pow, l, m), dl')), ctx, lib)
  {
    var g := "(" + (pl + ['^'] + pm) + ")";
    var t := g + ['*'] + dl;
    var t' := Bin(Mul, Bin(Pow, l, m), dl');
    PowerGroupReads(pl, pm, l, m, ctx, lib);
    AtomIsTerm(dl, dl', ctx, lib);
    ProductReads(g, '*', dl, Bin(Pow, l, m), dl', ctx, lib);
    ProductReads(pr, '*', t, r, t', ctx, lib);
    GroupReads(pr + ['*'] + t, Bin(Mul, r, t'), ctx, lib);
  }

  /** "(l^m)". */
  lemma PowerGroupReads(pl: string, pm: string, l: Expr, m: Expr, ctx: map<string, int>, lib: Library)
    requires ReadsAtom(pl, l, ctx, lib) && ReadsAtom(pm, m, ctx, lib)
    ensures ReadsAtom("(" + (pl + ['^'] + pm) + ")", Bin(Pow, l, m), ctx, lib)
  {
    AtomIsTerm(pm, m, ctx, lib);
    ProductReads(pl, '^', pm, l, m, ctx, lib);
    GroupReads(pl + ['^'] + pm, Bin(Pow, l, m), ctx, lib);
  }

  lemma ChainDiffReads(f: UnFn, g: UnFn, x: Expr, v: string, ctx: map<string, int>, lib: Library)
    requires (f == Sin && g == Cos) || (f == Exp && g == Exp)
    requires ReadsAtom(SqueezedDiff(x, v), Derivative(x, v), ctx, lib)
    requires ReadsAtom(Squeezed(x), x, ctx, lib)
    ensures ReadsAtom(SqueezedDiff(Un(f, x), v), Derivative(Un(f, x), v), ctx, lib)
  {
    ChainDiffText(f, g, x, v);
    ChainRule(f, g, x, v);
    ChainRuleReads(g, Squeezed(x), SqueezedDiff(x, v), x, Derivative(x, v), ctx, lib);
  }

  /** "(g(x)*dx)" read from its parts. */
  lemma ChainRuleReads(g: UnFn, px: string, dx: string, x: Expr, dx': Expr, ctx: map<string, int>, lib: Library)
    requires ReadsAtom(px, x, ctx, lib) && ReadsAtom(dx, dx', ctx, lib)
    ensures ReadsAtom("(" + ((FnName(g) + ("(" + px + ")")) + ['*'] + dx) + ")", Bin(Mul, Un(g, x), dx'), ctx, lib)
  {
    var c := FnName(g) + ("(" + px + ")");
    CallReads(g, px, x, ctx, lib);
    AtomIsTerm(dx, dx', ctx, lib);
    ProductReads(c, '*', dx, Un(g, x), dx', ctx, lib);
    GroupReads(c + ['*'] + dx, Bin(Mul, Un(g, x), dx'), ctx, lib);
  }

  lemma CosDiffReads(x: Expr, v: string, ctx: map<string, int>, lib: Library)
    requires ReadsAtom(SqueezedDiff(x, v), Derivative(x, v), ctx, lib)
    requires ReadsAtom(Squeezed(x), x, ctx, lib)
    ensures ReadsAtom(SqueezedDiff(Un(Cos, x), v), Derivative(Un(Cos, x), v), ctx, lib)
  {
    CosDiffText(x, v);
    CosineRule(x, v);
    NegatedChainReads(Squeezed(x), SqueezedDiff(x, v), x, Derivative(x, v), ctx, lib);
  }

  /** "(-sin(x)*dx)" read from its parts. */
  lemma NegatedChainReads(px: string, dx: string, x: Expr, dx': Expr, ctx: map<string, int>, lib: Library)
    requires ReadsAtom(px, x, ctx, lib) && ReadsAtom(dx, dx', ctx, lib)
    ensures ReadsAtom("(" + (['-'] + ((FnName(Sin) + ("(" + px + ")")) + ['*'] + dx)) + ")",
      Bin(Sub, Const(0), Bin(Mul, Un(Sin, x), dx')), ctx, lib)
  {
    var c := FnName(Sin) + ("(" + px + ")");
    var p := Bin(Mul, Un(Sin, x), dx');
    CallReads(Sin, px, x, ctx, lib);
    AtomIsTerm(dx, dx', ctx, lib);
    ProductReads(c, '*', dx, Un(Sin, x), dx', ctx, lib);
    NegationReads(c + ['*'] + dx, p, ctx, lib);
    GroupReads(['-'] + (c + ['*'] + dx), Bin(Sub, Const(0), p), ctx, lib);
  }

  lemma LnDiffReads(x: Expr, v: string, ctx: map<string, int>, lib: Library)
    requires ReadsAtom(SqueezedDiff(x, v), Derivative(x, v), ctx, lib)
    requires ReadsAtom(Squeezed(x), x, ctx, lib)
    ensures ReadsAtom(SqueezedDiff(Un(Ln, x), v), Derivative(Un(Ln, x), v), ctx, lib)
  {
    LnDiffText(x, v);
    LogarithmRule(x, v);
    RatioReads(SqueezedDiff(x, v), Squeezed(x), Derivative(x, v), x, ctx, lib);
  }

  /** "(dx/x)" read from its parts. */
  lemma RatioReads(dx: string, px: string, dx': Expr, x: Expr, ctx: map<string, int>, lib: Library)
    requires ReadsAtom(dx, dx', ctx, lib) && ReadsAtom(px, x, ctx, lib)
    ensures ReadsAtom("(" + (dx + ['/'] + px) + ")", Bin(Div, dx', x), ctx, lib)
  {
    AtomIsTerm(px, x, ctx, lib);
    ProductReads(dx, '/', px, dx', x, ctx, lib);
    GroupReads(dx + ['/'] + px, Bin(Div, dx', x), ctx, lib);
  }
}

=== FILE: evaluator.dfy ===
/**
 * The evaluator: `eval` of every node kind folds the tree under a context
 * that maps variable names to values.
 */
module Evaluator {
  import opened Tree

  /** The maths the numeric type takes from the C++ library, each followed
      by the conversion of its double result back to int: `std::pow`,
      `std::sin`, `std::cos`, `std::log` and `std::exp`. They are not part
      of this model, so the evaluator takes them as a parameter. */
  datatype Library = Library(
    pow: (int, int) -> int,
    sin: int -> int,
    cos: int -> int,
    ln: int -> int,
    exp: int -> int)

  function Abs(n: int): nat {
    if n < 0 then -n else n
  }

  /** C++ division of ints: the quotient truncated toward zero, so the
      remainder is smaller than the divisor and has the dividend's sign. */
  function TruncDiv(a: int, b: int): (q: int)
    requires b != 0
    ensures Abs(a - q * b) < Abs(b)
    ensures a - q * b == 0 || (a - q * b < 0 <==> a < 0)
  {
    var m := Abs(a) / Abs(b);
    TruncRemainder(a, b, m);
    if (a < 0) == (b < 0) then m else -m
  }

  /** The remainder left by the quotient of the magnitudes, signed. */
  lemma TruncRemainder(a: int, b: int, m: int)
    requires b != 0 && m == Abs(a) / Abs(b)
    ensures var q := if (a < 0) == (b < 0) then m else -m;
      Abs(a - q * b) < Abs(b) && (a - q * b == 0 || (a - q * b < 0 <==> a < 0))
  {
    var B, rem := Abs(b), Abs(a) % Abs(b);
    assert Abs(a) == m * B + rem && 0 <= rem < B;
    var q := if (a < 0) == (b < 0) then m else -m;
    if b > 0 {
      assert q * b == q * B;
    } else {
      assert q * b == (-q) * B;
    }
    assert a - q * b == if a < 0 then -rem else rem;
  }

  /** The non-division binary operators on int. */
  function Arith(op: BinOp, a: int, b: int, lib: Library): int
    requires op != Div
  {
    match op
    case Add => a + b
    case Sub => a - b
    case Mul => a * b
    case Pow => lib.pow(a, b)
  }

  function Analytic(f: UnFn, a: int, lib: Library): int {
    match f
    case Sin => lib.sin(a)
    case Cos => lib.cos(a)
    case Ln => lib.ln(a)
    case Exp => lib.exp(a)
  }

  /** `eval`. A variable missing from the context fails; a division
      evaluates its divisor first and fails on an exact zero before it
      evaluates the dividend; every other binary node evaluates its left
      operand, then its right. A failure names an undefined variable of
      the tree, or is a division by zero in a tree that divides. */
  function Eval(e: Expr, ctx: map<string, int>, lib: Library): (res: Result<int>)
    ensures res.Failure? ==>
      || (res.error.UndefinedVariable? && res.error.name in Variables(e) && res.error.name !in ctx)
      || (res.error == DivisionByZero && HasDivision(e))
  {
    match e
    case Const(c) => Success(c)
    case Var(x) => if x in ctx then Success(ctx[x]) else Failure(UndefinedVariable(x))
    case Bin(op, l, r) =>
      if op == Div then
        var d :- Eval(r, ctx, lib);
        if d == 0 then Failure(DivisionByZero)
        else
          var n :- Eval(l, ctx, lib);
          Success(TruncDiv(n, d))
      else
        var a :- Eval(l, ctx, lib);
        var b :- Eval(r, ctx, lib);
        Success(Arith(op, a, b, lib))
    case Un(f, x) =>
      var a :- Eval(x, ctx, lib);
      Success(Analytic(f, a, lib))
  }

  /** A tree evaluates only when every variable in it is defined; without
      divisions, that is also enough. */
  lemma {:induction false} EvalDefinedIff(e: Expr, ctx: map<string, int>, lib: Library)
    ensures Eval(e, ctx, lib).Success? ==> Variables(e) <= ctx.Keys
    ensures !HasDivision(e) ==> (Eval(e, ctx, lib).Success? <==> Variables(e) <= ctx.Keys)
  {
    match e
    case Const(_) =>
    case Var(_) =>
    case Bin(_, l, r) =>
      EvalDefinedIff(l, ctx, lib);
      EvalDefinedIff(r, ctx, lib);
    case Un(_, x) =>
      EvalDefinedIff(x, ctx, lib);
  }

  /** Evaluation reads the context only at the tree's own variables. */
  lemma {:induction false} EvalLocal(e: Expr, c1: map<string, int>, c2: map<string, int>, lib: Library)
    requires forall x :: x in Variables(e) ==> (x in c1 <==> x in c2)
    requires forall x :: x in Variables(e) && x in c1 ==> c1[x] == c2[x]
    ensures Eval(e, c1, lib) == Eval(e, c2, lib)
  {
    match e
    case Const(_) =>
    case Var(_) =>
    case Bin(_, l, r) =>
      EvalLocal(l, c1, c2, lib);
      EvalLocal(r, c1, c2, lib);
    case Un(_, x) =>
      EvalLocal(x, c1, c2, lib);
  }

  /** A zero divisor is reported before anything about the dividend, even
      a dividend whose own evaluation would fail. */
  lemma DivisorFirst(l: Expr, r: Expr, ctx: map<string, int>, lib: Library)
    requires Eval(r, ctx, lib) == Success(0)
    ensures Eval(Bin(Div, l, r), ctx, lib) == Failure(DivisionByZero)
  {
  }

  /** A sum evaluates its left operand first: when that fails, the sum
      reports the same error, whatever the right operand would report. */
  lemma AddLeftFirst(l: Expr, r: Expr, ctx: map<string, int>, lib: Library)
    requires Eval(l, ctx, lib).Failure?
    ensures Eval(Bin(Add, l, r), ctx, lib) == Failure(Eval(l, ctx, lib).error)
  {
  }
}

=== FILE: examples.dfy ===
/**
 * Concrete readings, printings and evaluations that pin down the rules on
 * small inputs, several of them the library's own expected outputs.
 */
module Examples {
  import opened Tree
  import opened Printer
  import opened Evaluator
  import opened Scanning
  import opened Parser
  import opened Reading

  /** Text with no space and no parenthesis. */
  predicate Plain(p: string) {
    forall i :: 0 <= i < |p| ==> p[i] != ' ' && p[i] != '(' && p[i] != ')'
  }

  /** A plain operand without operators, a + or -, and plain text after it
      read as the sum or difference of the two. */
  lemma PlainSum(a: string, c: char, b: string)
    requires c in AddOps && a != [] && Plain(a) && Plain(b)
    requires forall i :: 0 <= i < |a| ==> a[i] !in Operators
    ensures Parse(a + [c] + b) == Combine(OpOf(c), Parse(a), Parse(b))
  {
    assert ' ' !in a && '(' !in a && ')' !in a;
    assert ' ' !in b && '(' !in b && ')' !in b;
    PlainIsAtomic(a);
    AtomicUnsplit(a, AddOps);
    DepthPlain(b);
    ParseJoin(a, c, b);
  }

  /** Plain text is balanced. */
  lemma PlainBalanced(p: string)
    requires Plain(p)
    ensures Balanced(p)
  {
    forall k | 0 <= k <= |p|
      ensures Depth(p[..k]) == 0
    {
      assert '(' !in p[..k] && ')' !in p[..k];
      DepthPlain(p[..k]);
    }
    assert p[..|p|] == p;
  }

  /** " op " after text without spaces: the spaces go. */
  lemma Spaced(a: string, c: char, b: string)
    requires ' ' !in a && c != ' '
    ensures RemoveSpaces(a + " " + [c] + " " + b) == a + [c] + RemoveSpaces(b)
  {
    SpacedSymbol(a, c, b);
    RemoveSpacesKeeps(a);
  }

  /** `a op b` with one space on each side of the operator. */
  lemma Squeeze(s: string, a: string, c: char, b: string)
    requires ' ' !in a && ' ' !in b && c != ' '
    requires s == a + " " + [c] + " " + b
    ensures RemoveSpaces(s) == a + [c] + b
  {
    Spaced(a, c, b);
    RemoveSpacesKeeps(b);
  }

  /** Operand text: non-empty, plain, without operators. */
  predicate Operand(p: string) {
    p != [] && Plain(p) && forall i :: 0 <= i < |p| ==> p[i] !in Operators
  }

  lemma PlainConcat(p: string, q: string)
    requires Plain(p) && Plain(q)
    ensures Plain(p + q)
  {
    assert forall i :: |p| <= i < |p + q| ==> (p + q)[i] == q[i - |p|];
  }

  /** `a c b d e` with spaced additive operators nests to the right. */
  lemma ReadChain(s: string, a: string, c: char, b: string, d: char, e: string)
    requires c in AddOps && d in AddOps && Operand(a) && Operand(b) && Operand(e)
    requires s == a + " " + [c] + " " + b + " " + [d] + " " + e
    ensures Parse(s) == Combine(OpOf(c), Parse(a), Combine(OpOf(d), Parse(b), Parse(e)))
  {
    SqueezeChain(s, a, c, b, d, e);
    ParseIgnoresSpaces(s);
    PlainChain(a, c, b, d, e);
  }

  /** The spaces of `a c b d e` go. */
  lemma SqueezeChain(s: string, a: string, c: char, b: string, d: char, e: string)
    requires c != ' ' && d != ' ' && Operand(a) && Operand(b) && Operand(e)
    requires s == a + " " + [c] + " " + b + " " + [d] + " " + e
    ensures RemoveSpaces(s) == a + [c] + (b + [d] + e)
  {
    var be := b + " " + [d] + " " + e;
    assert s == a + " " + [c] + " " + be;
    assert ' ' !in a && ' ' !in b && ' ' !in e;
    assert RemoveSpaces(be) == b + [d] + e by {
      Spaced(b, d, e);
      RemoveSpacesKeeps(e);
    }
    Spaced(a, c, be);
  }

  /** `acbde` without spaces nests to the right. */
  lemma PlainChain(a: string, c: char, b: string, d: char, e: string)
    requires c in AddOps && d in AddOps && Operand(a) && Operand(b) && Operand(e)
    ensures Parse(a + [c] + (b + [d] + e)) == Combine(OpOf(c), Parse(a), Combine(OpOf(d), Parse(b), Parse(e)))
  {
    var bde := b + [d] + e;
    PlainSum(b, d, e);
    assert Plain(bde) by {
      PlainConcat(b, [d]);
      PlainConcat(b + [d], e);
    }
    PlainSum(a, c, bde);
  }

  lemma ChainSplits()
    ensures Parse("1 + x + y") == Combine(Add, Parse("1"), Combine(Add, Parse("x"), Parse("y")))
  {
    ReadChain("1 + x + y", "1", '+', "x", '+', "y");
  }

  lemma ChainOperands()
    ensures Parse("1") == Success(Const(1))
    ensures Parse("x") == Success(Var("x")) && Parse("y") == Success(Var("y"))
  {
    assert NatToString(1) == "1";
    ParseLiteral(1);
    ParseName("x");
    ParseName("y");
  }

  /** `1 + x + y` splits at its first `+`: chains nest to the right. */
  lemma ChainNestsRight()
    ensures Parse("1 + x + y") == Success(Bin(Add, Const(1), Bin(Add, Var("x"), Var("y"))))
  {
    ChainSplits();
    ChainOperands();
  }

  lemma ReadDigits()
    ensures Parse("2") == Success(Const(2))
    ensures Parse("3") == Success(Const(3))
    ensures Parse("5") == Success(Const(5))
    ensures Parse("10") == Success(Const(10))
  {
    assert NatToString(2) == "2" && NatToString(3) == "3" && NatToString(5) == "5";
    assert NatToString(10) == "10";
    ParseLiteral(2);
    ParseLiteral(3);
    ParseLiteral(5);
    ParseLiteral(10);
  }

  lemma DifferenceSplits()
    ensures Parse("10 - 2 - 3") == Combine(Sub, Parse("10"), Combine(Sub, Parse("2"), Parse("3")))
  {
    ReadChain("10 - 2 - 3", "10", '-', "2", '-', "3");
  }

  lemma DifferenceTree()
    ensures Parse("10 - 2 - 3") == Success(Bin(Sub, Const(10), Bin(Sub, Const(2), Const(3))))
  {
    DifferenceSplits();
    ReadDigits();
  }

  lemma DifferenceValue(lib: Library)
    ensures Eval(Bin(Sub, Const(10), Bin(Sub, Const(2), Const(3))), map[], lib) == Success(11)
  {
    var inner := Bin(Sub, Const(2), Const(3));
    assert Eval(inner, map[], lib) == Success(-1);
  }

  /** Subtraction chains nest to the right too: `10 - 2 - 3` is read as
      10 - (2 - 3) and evaluates to 11, not to 5. */
  lemma SubtractionNestsRight(lib: Library)
    ensures Parse("10 - 2 - 3") == Success(Bin(Sub, Const(10), Bin(Sub, Const(2), Const(3))))
    ensures Eval(Parse("10 - 2 - 3").value, map[], lib) == Success(11)
  {
    DifferenceTree();
    DifferenceValue(lib);
  }

  /** A leading minus reads as zero minus the rest. */
  lemma LeadingMinus()
    ensures Parse("-x") == Success(Bin(Sub, Const(0), Var("x")))
  {
    ParseLeadingSign('-', "x");
    assert "-" + "x" == "-x";
    ParseName("x");
  }

  lemma UnclosedDepth()
    ensures Depth("(x+y") == 1
  {
    assert "(x+y" == "(x+" + "y";
    assert "(x+" == "(x" + "+";
    assert "(x" == "(" + "x";
    DepthConcat("(x+", "y");
    DepthConcat("(x", "+");
    DepthConcat("(", "x");
  }

  lemma InsideOutUnsplit()
    ensures Depth(")x(") == 0
    ensures FirstTop(")x(", AddOps) == None && FirstTop(")x(", MulOps) == None
    ensures FirstTop(")x(", PowOps) == None
  {
    var t := ")x(";
    assert t == ")x" + "(" && ")x" == ")" + "x";
    DepthConcat(")x", "(");
    DepthConcat(")", "x");
    forall j | 0 <= j < |t|
      ensures !IsTopOp(t, j, AddOps) && !IsTopOp(t, j, MulOps) && !IsTopOp(t, j, PowOps)
    {
    }
    FirstTopIs(t, AddOps, None);
    FirstTopIs(t, MulOps, None);
    FirstTopIs(t, PowOps, None);
  }

  lemma InsideOutAtom()
    ensures ParseAtom(")x(") == Success(Var(")x("))
  {
    var t := ")x(";
    assert Substr(t, 0, 4) == t && Substr(t, 0, 3) == t;
  }

  /** Only the final depth is checked: ")x(" evens out, has no operator,
      and is neither a group, a call nor a literal, so it reads as the
      variable of that name. */
  lemma InsideOutName()
    ensures Parse(")x(") == Success(Var(")x("))
  {
    RemoveSpacesKeeps(")x(");
    InsideOutUnsplit();
    InsideOutAtom();
    assert Parse(")x(") == ParseSum(")x(");
  }

  /** "2*" splits at "*" into 2 and the variable with the empty name. */
  lemma TrailingProduct()
    ensures Parse("2*") == Success(Bin(Mul, Const(2), Var("")))
  {
    assert "2*" == "2" + ['*'] + "";
    DepthPlain("2");
    DepthPlain("");
    forall j | 0 <= j < |"2"|
      ensures !IsTopOp("2", j, AddOps) && !IsTopOp("2", j, MulOps)
    {
    }
    FirstTopIs("2", AddOps, None);
    FirstTopIs("2", MulOps, None);
    FirstTopIs("", AddOps, None);
    ParseJoin("2", '*', "");
    ReadDigits();
    ParseName("");
  }

  lemma SignSplit()
    ensures Parse("2*-3") == Combine(Sub, Parse("2*"), Parse("3"))
  {
    assert "2*-3" == "2*" + ['-'] + "3";
    DepthPlain("2*");
    DepthPlain("3");
    forall j | 0 <= j < |"2*"|
      ensures !IsTopOp("2*", j, AddOps)
    {
    }
    FirstTopIs("2*", AddOps, None);
    ParseJoin("2*", '-', "3");
  }

  /** A sign after another operator is not the operand's sign: "2*-3"
      splits at its "-" into "2*" and 3, and "2*" splits at "*" into 2
      and the variable with the empty name. */
  lemma SignAfterOperator()
    ensures Parse("2*-3") == Success(Bin(Sub, Bin(Mul, Const(2), Var("")), Const(3)))
  {
    SignSplit();
    TrailingProduct();
    ReadDigits();
  }

  /** A group that is never closed is a parenthesis mismatch. */
  lemma UnclosedGroup()
    ensures Parse("(x + y") == Failure(ParenthesisMismatch)
  {
    Squeeze("(x + y", "(x", '+', "y");
    assert "(x" + "+" + "y" == "(x+y";
    UnclosedDepth();
    UnbalancedRejected("(x + y");
  }

  /** `a c b` with one space on each side of the operator, for operands
      without operators, reads as the operator applied to the two. */
  lemma ReadPair(s: string, a: string, c: char, b: string, op: BinOp)
    requires c in Operators && Operand(a) && Operand(b) && Symbol(op) == c
    requires s == a + " " + [c] + " " + b
    ensures Parse(s) == Combine(op, Parse(a), Parse(b))
  {
    OpOfSymbol(op);
    assert ' ' !in a && '(' !in a && ')' !in a;
    assert ' ' !in b && '(' !in b && ')' !in b;
    Squeeze(s, a, c, b);
    ParseIgnoresSpaces(s);
    PlainIsAtomic(a);
    PlainIsAtomic(b);
    AtomicUnsplit(a, AddOps);
    AtomicUnsplit(a, MulOps);
    AtomicUnsplit(a, PowOps);
    AtomicUnsplit(b, AddOps);
    AtomicUnsplit(b, MulOps);
    ParseJoin(a, c, b);
  }

  lemma SumSplits()
    ensures Parse("x + y") == Combine(Add, Parse("x"), Parse("y"))
  {
    ReadPair("x + y", "x", '+', "y", Add);
  }

  lemma ReadSum()
    ensures Parse("x + y") == Success(Bin(Add, Var("x"), Var("y")))
  {
    SumSplits();
    ChainOperands();
  }

  lemma ProductSplits()
    ensures Parse("1 * 1") == Combine(Mul, Parse("1"), Parse("1"))
  {
    ReadPair("1 * 1", "1", '*', "1", Mul);
  }

  lemma ReadProduct()
    ensures Parse("1 * 1") == Success(Bin(Mul, Const(1), Const(1)))
  {
    ProductSplits();
    ChainOperands();
  }

  lemma PowerSplits()
    ensures Parse("x ^ y") == Combine(Pow, Parse("x"), Parse("y"))
  {
    ReadPair("x ^ y", "x", '^', "y", Pow);
  }

  lemma ReadPower()
    ensures Parse("x ^ y") == Success(Bin(Pow, Var("x"), Var("y")))
  {
    PowerSplits();
    ChainOperands();
  }

  lemma QuotientSplits()
    ensures Parse("10 / 2") == Combine(Div, Parse("10"), Parse("2"))
  {
    ReadPair("10 / 2", "10", '/', "2", Div);
  }

  lemma ReadQuotient()
    ensures Parse("10 / 2") == Success(Bin(Div, Const(10), Const(2)))
  {
    QuotientSplits();
    ReadDigits();
  }

  lemma SumPrinted()
    ensures ToString(Bin(Add, Var("x"), Var("y"))) == "(x + y)"
  {
  }

  /** "x + y" reads as the sum and prints back in parentheses with
      spaced symbols. */
  lemma PrintSum()
    ensures Parse("x + y").Success?
    ensures ToString(Parse("x + y").value) == "(x + y)"
  {
    ReadSum();
    SumPrinted();
  }

  lemma ProductDiffText()
    ensures Diff(Bin(Mul, Const(1), Const(1)), "") == "(1 * 0 + 0 * 1)"
  {
    assert NatToString(1) == "1";
  }

  /** The product rule as text, L * dR + dL * R, for "1 * 1". */
  lemma DiffProduct()
    ensures Parse("1 * 1").Success?
    ensures Diff(Parse("1 * 1").value, "") == "(1 * 0 + 0 * 1)"
  {
    ReadProduct();
    ProductDiffText();
  }

  lemma SumDiffTextOf()
    ensures Diff(Bin(Add, Var("x"), Var("y")), "x") == "(1 + 0)"
  {
  }

  /** The sum rule as text for "x + y", with the variable's derivative 1
      and another variable's 0. */
  lemma DiffSum()
    ensures Parse("x + y").Success?
    ensures Diff(Parse("x + y").value, "x") == "(1 + 0)"
  {
    ReadSum();
    SumDiffTextOf();
  }

  lemma ExponentText()
    ensures ToString(Bin(Sub, Var("y"), Const(1))) == "(y - 1)"
  {
    assert NatToString(1) == "1";
  }

  lemma PowerDiffUnfold()
    ensures Diff(Bin(Pow, Var("x"), Var("y")), "x")
      == "(" + "y" + " * (" + "x" + " ^ " + ToString(Bin(Sub, Var("y"), Const(1))) + ") * " + Diff(Var("x"), "x") + ")"
  {
  }

  lemma VariableDiffText()
    ensures Diff(Var("x"), "x") == "1"
  {
    assert NatToString(1) == "1";
  }

  lemma PowerLayout()
    ensures "(" + "y" + " * (" + "x" + " ^ " + "(y - 1)" + ") * " + "1" + ")" == "(y * (x ^ (y - 1)) * 1)"
  {
  }

  lemma PowerDiffText()
    ensures Diff(Bin(Pow, Var("x"), Var("y")), "x") == "(y * (x ^ (y - 1)) * 1)"
  {
    PowerDiffUnfold();
    ExponentText();
    VariableDiffText();
    PowerLayout();
  }

  /** The power rule as text for "x ^ y": the exponent is taken as a
      constant, and its "y - 1" is printed as a tree. */
  lemma DiffPower()
    ensures Parse("x ^ y").Success?
    ensures Diff(Parse("x ^ y").value, "x") == "(y * (x ^ (y - 1)) * 1)"
  {
    ReadPower();
    PowerDiffText();
  }

  lemma QuotientValue(lib: Library)
    ensures Eval(Bin(Div, Const(10), Const(2)), map[], lib) == Success(5)
  {
    assert TruncDiv(10, 2) == 5;
  }

  /** "10 / 2" evaluates to 5. */
  lemma EvalQuotient(lib: Library)
    ensures Parse("10 / 2").Success?
    ensures Eval(Parse("10 / 2").value, map[], lib) == Success(5)
  {
    ReadQuotient();
    QuotientValue(lib);
  }

  /** The divisor is evaluated first: a zero divisor is reported even
      when the dividend is an undefined variable. Quotients truncate
      toward zero. */
  lemma ZeroDivisorFirst(lib: Library)
    ensures Eval(Bin(Div, Var("x"), Const(0)), map[], lib) == Failure(DivisionByZero)
    ensures Eval(Bin(Div, Const(7), Const(-2)), map[], lib) == Success(-3)
  {
  }

  lemma PrintNegativeSum()
    ensures ToString(Bin(Add, Const(-5), Const(3))) == "(-5 + 3)"
  {
    assert NatToString(5) == "5" && NatToString(3) == "3";
    assert IntToString(-5) == "-5";
  }

  lemma FiveAndThree()
    ensures Parse("5+3") == Success(Bin(Add, Const(5), Const(3)))
  {
    ReadDigits();
    PlainSum("5", '+', "3");
    assert "5" + "+" + "3" == "5+3";
  }

  lemma NegatedSum()
    ensures Parse("-5+3") == Success(Bin(Sub, Const(0), Bin(Add, Const(5), Const(3))))
  {
    FiveAndThree();
    ParseLeadingSign('-', "5+3");
    assert "-" + "5+3" == "-5+3";
  }

  lemma NegatedSumSqueezed()
    ensures RemoveSpaces("-5 + 3") == "-5+3" && Balanced("-5+3")
  {
    Squeeze("-5 + 3", "-5", '+', "3");
    assert "-5" + "+" + "3" == "-5+3";
    PlainBalanced("-5+3");
  }

  /** Text in parentheses whose inside reads as `q` reads as the group
      tree of `q`. */
  lemma ReadGroup(s: string, x: string, y: string, q: Expr)
    requires s == "(" + x + ")" && RemoveSpaces(x) == y && Balanced(y)
    requires Parse(y) == Success(q)
    ensures Parse(s) == Success(Paren(q))
  {
    ParseGroup(x);
    ParseIgnoresSpaces(x);
  }

  lemma NegatedSumText()
    ensures "(-5 + 3)" == "(" + "-5 + 3" + ")"
  {
  }

  lemma NegatedSumGrouped()
    ensures Parse("(-5 + 3)") == Success(Paren(Bin(Sub, Const(0), Bin(Add, Const(5), Const(3)))))
  {
    NegatedSumSqueezed();
    NegatedSum();
    NegatedSumText();
    ReadGroup("(-5 + 3)", "-5 + 3", "-5+3", Bin(Sub, Const(0), Bin(Add, Const(5), Const(3))));
  }

  /** A negative constant prints with a leading minus, which reads back as
      a subtraction of everything after it: `(-5 + 3)` reads as
      0 - (5 + 3), worth -8 where the printed tree is worth -2. */
  lemma NegativeConstantMisread(lib: Library)
    ensures ToString(Bin(Add, Const(-5), Const(3))) == "(-5 + 3)"
    ensures Eval(Bin(Add, Const(-5), Const(3)), map[], lib) == Success(-2)
    ensures Parse("(-5 + 3)").Success?
    ensures Eval(Parse("(-5 + 3)").value, map[], lib) == Success(-8)
  {
    PrintNegativeSum();
    NegatedSumGrouped();
    PrintedValue(lib);
    MisreadValue(lib);
  }

  lemma PrintedValue(lib: Library)
    ensures Eval(Bin(Add, Const(-5), Const(3)), map[], lib) == Success(-2)
  {
  }

  lemma MisreadValue(lib: Library)
    ensures Eval(Paren(Bin(Sub, Const(0), Bin(Add, Const(5), Const(3)))), map[], lib) == Success(-8)
  {
    var sum := Bin(Add, Const(5), Const(3));
    var q := Bin(Sub, Const(0), sum);
    ParenEval(q, map[], lib);
    assert Eval(sum, map[], lib) == Success(8);
  }
}

=== FILE: handle.dfy ===
/**
 * The user-facing handle `Expression`: a class whose one field is the
 * (shared, immutable) tree it points at. Copies share the tree; operators
 * build a new node over the operands' trees; compound assignments rebind
 * the handle to such a node. A default-constructed or moved-from handle
 * points at nothing.
 */
module Handle {
  import opened Tree
  import Printer
  import Evaluator
  import Parser

  class Expression {
    /** `impl_`: the tree, or None for an empty handle (a null pointer). */
    var impl: Option<Expr>

    /** `Expression()`: the empty handle. */
    constructor Empty()
      ensures impl == None
    {
      impl := None;
    }

    /** The private constructor over an existing tree. */
    constructor FromImpl(e: Expr)
      ensures impl == Some(e)
    {
      impl := Some(e);
    }

    /** `Expression(T value)`: a constant. */
    constructor FromValue(c: int)
      ensures impl == Some(Const(c))
    {
      impl := Some(Const(c));
    }

    /** The copy constructor: the copy shares the tree. */
    constructor Copy(copy: Expression)
      ensures impl == copy.impl
    {
      impl := copy.impl;
    }

    /** The move constructor: the tree moves, the source is left empty. */
    constructor Move(moved: Expression)
      modifies moved
      ensures impl == old(moved.impl) && moved.impl == None
    {
      impl := moved.impl;
      new;
      moved.impl := None;
    }

    /** `Expression(std::string)`: parse the text; a parenthesis mismatch
        is thrown, so no handle is made. */
    static method FromText(text: string) returns (r: Result<Expression>)
      ensures r.Success? <==> Parser.Parse(text).Success?
      ensures r.Success? ==> fresh(r.value) && r.value.impl == Some(Parser.Parse(text).value)
      ensures r.Failure? ==> r.error == ParenthesisMismatch
    {
      var t := Parser.ParseExpression(text);
      if t.Failure? {
        return Failure(t.error);
      }
      var h := new Expression.FromImpl(t.value);
      return Success(h);
    }

    /** Copy assignment: share the other handle's tree. Assigning a handle
        to itself changes nothing. */
    method Assign(that: Expression)
      modifies this
      ensures impl == old(that.impl)
    {
      if this == that {
        return;
      }
      impl := that.impl;
    }

    /** Move assignment: take the other handle's tree and leave it empty;
        assigning a handle to itself changes nothing. */
    method MoveAssign(that: Expression)
      modifies this, that
      ensures this == that ==> impl == old(impl)
      ensures this != that ==> impl == old(that.impl) && that.impl == None
    {
      if this == that {
        return;
      }
      impl := that.impl;
      that.impl := None;
    }

    /** The operators + - * / ^: a new handle on a new node whose operands
        are the two handles' trees. Neither operand changes. */
    method Apply(op: BinOp, that: Expression) returns (r: Expression)
      requires impl.Some? && that.impl.Some?
      ensures fresh(r) && r.impl == Some(Bin(op, impl.value, that.impl.value))
    {
      r := new Expression.FromImpl(Bin(op, impl.value, that.impl.value));
    }

    /** The compound assignments += -= *= /= ^=: `*this = *this op that`.
        With `that` the handle itself, both operands are its old tree. */
    method ApplyAssign(op: BinOp, that: Expression)
      requires impl.Some? && that.impl.Some?
      modifies this
      ensures impl == Some(Bin(op, old(impl).value, old(that.impl).value))
    {
      var r := Apply(op, that);
      Assign(r);
    }

    /** `eval`: the tree's value under the context. */
    method Eval(ctx: map<string, int>, lib: Evaluator.Library) returns (r: Result<int>)
      requires impl.Some?
      ensures r == Evaluator.Eval(impl.value, ctx, lib)
    {
      r := Evaluator.Eval(impl.value, ctx, lib);
    }

    /** `to_string`: the tree's rendering. */
    method ToString() returns (s: string)
      requires impl.Some?
      ensures s == Printer.ToString(impl.value)
    {
      s := Printer.ToString(impl.value);
    }

    /** `diff`: the text of the tree's derivative. */
    method Diff(v: string) returns (s: string)
      requires impl.Some?
      ensures s == Printer.Diff(impl.value, v)
    {
      s := Printer.Diff(impl.value, v);
    }
  }

  /** The free functions sin, cos, ln and exp: a new handle on a new node
      over the argument's tree. The argument is taken by copy and is not
      changed. */
  method Apply(f: UnFn, that: Expression) returns (r: Expression)
    requires that.impl.Some?
    ensures fresh(r) && r.impl == Some(Un(f, that.impl.value))
  {
    var copy := new Expression.Copy(that);
    r := new Expression.FromImpl(Un(f, copy.impl.value));
  }

  /** Shared trees are never changed in place: after `x += x`, a copy made
      before still holds the old tree, and x holds the sum of two old
      trees. */
  method CopyKeepsOldTree(x: Expression) returns (y: Expression)
    requires x.impl.Some?
    modifies x
    ensures fresh(y) && y.impl == old(x.impl)
    ensures x.impl == Some(Bin(Add, old(x.impl).value, old(x.impl).value))
  {
    y := new Expression.Copy(x);
    x.ApplyAssign(Add, x);
  }
}

=== FILE: parser.dfy ===
/**
 * The parsing constructor `Expression(std::string)`: a recursive descent
 * that deletes the spaces, then splits at the FIRST operator at
 * parenthesis depth 0 of the weakest level that has one (+ and -, then
 * * and /, then ^), and reads whatever is left as an atom: a parenthesised
 * group, a call of sin, cos, exp or ln, a numeric literal or a variable.
 *
 * `Parse` states the result as a function of the text; `ParseExpression`
 * is the constructor's own loops, proved to compute it.
 */
module Parser {
  import opened Tree
  import opened Printer
  import opened Scanning

  /** The operator a split character stands for. */
  function OpOf(c: char): (op: BinOp)
    requires c in Operators
    ensures Symbol(op) == c
  {
    match c
    case '+' => Add
    case '-' => Sub
    case '*' => Mul
    case '/' => Div
    case '^' => Pow
  }

  /** Reading a symbol back gives the operator that was printed. */
  lemma OpOfSymbol(op: BinOp)
    ensures Symbol(op) in Operators && OpOf(Symbol(op)) == op
  {
  }

  /** The tree built for a parenthesised group whose inside parses to `e`:
      the group is parsed into `q`, `q = q - q` is formed, and the result
      is `q + e`. */
  function Paren(e: Expr): Expr {
    Bin(Add, Bin(Sub, e, e), e)
  }

  /** A binary node of two operands that may each have failed; the first
      failure is reported. */
  function Combine(op: BinOp, l: Result<Expr>, r: Result<Expr>): (c: Result<Expr>)
    ensures c.Success? <==> l.Success? && r.Success?
    ensures c.Success? ==> c.value == Bin(op, l.value, r.value)
    ensures c.Failure? ==> c.error == (if l.Failure? then l.error else r.error)
  {
    if l.Failure? then Failure(l.error)
    else if r.Failure? then Failure(r.error)
    else Success(Bin(op, l.value, r.value))
  }

  /** The tree the constructor builds from `text`. The only failure is a
      parenthesis mismatch. */
  function Parse(text: string): (r: Result<Expr>)
    ensures r.Failure? ==> r.error == ParenthesisMismatch
    decreases |text|, 4
  {
    ParseSum(RemoveSpaces(text))
  }

  /** The first scan, on text without spaces: split at the first + or -
      at depth 0, reading an empty left operand as the text "0"; with no
      such split, the parentheses must even out. */
  function ParseSum(t: string): (r: Result<Expr>)
    ensures r.Failure? ==> r.error == ParenthesisMismatch
    decreases |t|, 3
  {
    match FirstTop(t, AddOps)
    case Some(i) =>
      var left := if i == 0 then Success(Const(0)) else Parse(t[..i]);
      Combine(OpOf(t[i]), left, Parse(t[i + 1..]))
    case None =>
      if Depth(t) != 0 then Failure(ParenthesisMismatch) else ParseProduct(t)
  }

  /** The second scan: split at the first * or / at depth 0. */
  function ParseProduct(t: string): (r: Result<Expr>)
    ensures r.Failure? ==> r.error == ParenthesisMismatch
    decreases |t|, 2
  {
    match FirstTop(t, MulOps)
    case Some(i) => Combine(OpOf(t[i]), Parse(t[..i]), Parse(t[i + 1..]))
    case None => ParsePower(t)
  }

  /** The third scan: split at the first ^ at depth 0. */
  function ParsePower(t: string): (r: Result<Expr>)
    ensures r.Failure? ==> r.error == ParenthesisMismatch
    decreases |t|, 1
  {
    match FirstTop(t, PowOps)
    case Some(i) => Combine(Pow, Parse(t[..i]), Parse(t[i + 1..]))
    case None => ParseAtom(t)
  }

  /** An atom, given without spaces and without a split position. The
      inside of a group or a call is cut with `substr`, so a call written
      without its closing parenthesis loses its last character, and one
      with nothing after "(" reads the empty text. */
  function ParseAtom(t: string): (r: Result<Expr>)
    ensures r.Failure? ==> r.error == ParenthesisMismatch
    decreases |t|, 0
  {
    if |t| > 0 && t[0] == '(' then
      if t[|t| - 1] != ')' then Failure(ParenthesisMismatch)
      else
        var e :- Parse(Substr(t, 1, SizeSub(|t|, 2)));
        Success(Paren(e))
    else if Substr(t, 0, 4) == "sin(" then
      var x :- Parse(Substr(t, 4, SizeSub(|t|, 5)));
      Success(Un(Sin, x))
    else if Substr(t, 0, 4) == "cos(" then
      var x :- Parse(Substr(t, 4, SizeSub(|t|, 5)));
      Success(Un(Cos, x))
    else if Substr(t, 0, 4) == "exp(" then
      var x :- Parse(Substr(t, 4, SizeSub(|t|, 5)));
      Success(Un(Exp, x))
    else if Substr(t, 0, 3) == "ln(" then
      var x :- Parse(Substr(t, 3, SizeSub(|t|, 4)));
      Success(Un(Ln, x))
    else if |t| > 0 && IsDigit(t[0]) then
      Success(Const(LiteralValue(t)))
    else
      Success(Var(t))
  }

  /** The constructor's first loop: delete the first space while there is
      one. */
  method DeleteSpaces(text: string) returns (variable: string)
    ensures variable == RemoveSpaces(text)
  {
    variable := text;
    while Find(variable, ' ') < |variable|
      invariant RemoveSpaces(variable) == RemoveSpaces(text)
      decreases |variable|
    {
      var k := Find(variable, ' ');
      DeleteOneSpace(variable, k);
      variable := variable[..k] + variable[k + 1..];
    }
    assert ' ' !in variable;
    RemoveSpacesKeeps(variable);
  }

  /** One of the constructor's three scans: count the depth from 0 and stop
      at the first character of `ops` met at depth 0. When there is none,
      the counter ends at the depth of the whole text. (The constructor
      keeps one counter for the three scans; each scan it reaches starts
      with the counter at 0.) */
  method ScanFor(variable: string, ops: set<char>) returns (found: Option<nat>, depth: int)
    requires '(' !in ops && ')' !in ops
    ensures found == FirstTop(variable, ops)
    ensures found.None? ==> depth == Depth(variable)
  {
    depth := 0;
    for i := 0 to |variable|
      invariant depth == Depth(variable[..i])
      invariant forall j :: 0 <= j < i ==> !IsTopOp(variable, j, ops)
    {
      assert variable[..i + 1][..i] == variable[..i];
      if variable[i] == '(' {
        depth := depth + 1;
        continue;
      }
      if variable[i] == ')' {
        depth := depth - 1;
        continue;
      }
      if depth != 0 {
        continue;
      }
      if variable[i] in ops {
        FirstTopIs(variable, ops, Some(i));
        return Some(i), depth;
      }
    }
    assert variable[..|variable|] == variable;
    FirstTopIs(variable, ops, None);
    found := None;
  }

  /** The constructor: delete the spaces, then scan three times for a
      split position, and read an atom if there is none. */
  method ParseExpression(text: string) returns (r: Result<Expr>)
    ensures r == Parse(text)
    decreases 2 * |text| + (if text == "0" then 0 else 1), 2
  {
    var variable := DeleteSpaces(text);
    assert Parse(text) == ParseSum(variable);

    var found, depth := ScanFor(variable, AddOps);
    if found.Some? {
      var i := found.value;
      var l := variable[..i];
      if |l| == 0 {
        l := "0";
        ParseZero();
      }
      var left := ParseExpression(l);
      var right := ParseExpression(variable[i + 1..]);
      return Combine(OpOf(variable[i]), left, right);
    }
    if depth != 0 {
      return Failure(ParenthesisMismatch);
    }
    r := ParseProductText(variable);
  }

  /** The constructor after its first scan found no split: the second and
      third scans, then the atom. */
  method ParseProductText(variable: string) returns (r: Result<Expr>)
    ensures r == ParseProduct(variable)
    decreases 2 * |variable|, 1
  {
    var found, depth := ScanFor(variable, MulOps);
    if found.Some? {
      var i := found.value;
      var left := ParseExpression(variable[..i]);
      var right := ParseExpression(variable[i + 1..]);
      return Combine(OpOf(variable[i]), left, right);
    }

    assert ParseProduct(variable) == ParsePower(variable);
    found, depth := ScanFor(variable, PowOps);
    if found.Some? {
      var i := found.value;
      var left := ParseExpression(variable[..i]);
      var right := ParseExpression(variable[i + 1..]);
      return Combine(Pow, left, right);
    }

    assert ParsePower(variable) == ParseAtom(variable);
    r := ParseAtomText(variable);
  }

  method ParseAtomText(variable: string) returns (r: Result<Expr>)
    ensures r == ParseAtom(variable)
    decreases 2 * |variable|, 0
  {
    if |variable| > 0 && variable[0] == '(' {
      if variable[|variable| - 1] != ')' {
        return Failure(ParenthesisMismatch);
      }
      var inside := Substr(variable, 1, SizeSub(|variable|, 2));
      var qwe := ParseExpression(inside);
      if qwe.Failure? {
        return qwe;
      }
      qwe := Success(Bin(Sub, qwe.value, qwe.value));
      var again := ParseExpression(inside);
      return Combine(Add, qwe, again);
    }
    if Substr(variable, 0, 4) == "sin(" {
      var x :- ParseExpression(Substr(variable, 4, SizeSub(|variable|, 5)));
      return Success(Un(Sin, x));
    }
    if Substr(variable, 0, 4) == "cos(" {
      var x :- ParseExpression(Substr(variable, 4, SizeSub(|variable|, 5)));
      return Success(Un(Cos, x));
    }
    if Substr(variable, 0, 4) == "exp(" {
      var x :- ParseExpression(Substr(variable, 4, SizeSub(|variable|, 5)));
      return Success(Un(Exp, x));
    }
    if Substr(variable, 0, 3) == "ln(" {
      var x :- ParseExpression(Substr(variable, 3, SizeSub(|variable|, 4)));
      return Success(Un(Ln, x));
    }
    if |variable| > 0 && IsDigit(variable[0]) {
      return Success(Const(LiteralValue(variable)));
    }
    return Success(Var(variable));
  }

  // -----------------------------------------------------------------------
  // What the parser reads
  // -----------------------------------------------------------------------

  /** The text "0", which stands in for an empty left operand of + and -,
      is the constant 0. */
  lemma ParseZero()
    ensures Parse("0") == Success(Const(0))
  {
    var z := "0";
    RemoveSpacesKeeps(z);
    PlainIsAtomic(z);
    AtomicUnsplit(z, AddOps);
    AtomicUnsplit(z, MulOps);
    AtomicUnsplit(z, PowOps);
    assert LeadingDigits(z) == z;
    assert DigitsValue(z) == 0 by {
      assert z[..0] == [];
    }
  }

  /** Spaces never matter: text reads as it does with its spaces deleted. */
  lemma ParseIgnoresSpaces(s: string)
    ensures Parse(s) == Parse(RemoveSpaces(s))
  {
    RemoveSpacesKeeps(RemoveSpaces(s));
  }

  /** Text whose parentheses do not even out is rejected, however deep in
      the splits the imbalance ends up. */
  lemma {:induction false} UnbalancedRejected(s: string)
    requires Depth(RemoveSpaces(s)) != 0
    ensures Parse(s) == Failure(ParenthesisMismatch)
    decreases |s|
  {
    var t := RemoveSpaces(s);
    match FirstTop(t, AddOps)
    case Some(i) =>
      var b := t[i + 1..];
      // the depth before a split position is 0, so the imbalance is in b
      DepthAfterSplit(t, i);
      assert ' ' !in b by {
        assert forall x :: x in b ==> x in t;
      }
      RemoveSpacesKeeps(b);
      UnbalancedRejected(b);
    case None =>
  }

  /** Text that no operator at depth 0 splits, and that opens with "(" but
      does not end with ")", is rejected: by the depth check when it is
      unbalanced, by the group case otherwise. */
  lemma UnclosedGroupRejected(t: string)
    requires ' ' !in t && |t| > 0 && t[0] == '(' && t[|t| - 1] != ')'
    requires FirstTop(t, Operators) == None
    ensures Parse(t) == Failure(ParenthesisMismatch)
  {
    RemoveSpacesKeeps(t);
    forall j | 0 <= j < |t|
      ensures !IsTopOp(t, j, AddOps) && !IsTopOp(t, j, MulOps) && !IsTopOp(t, j, PowOps)
    {
      assert !IsTopOp(t, j, Operators);
    }
    FirstTopIs(t, AddOps, None);
    FirstTopIs(t, MulOps, None);
    FirstTopIs(t, PowOps, None);
    assert Parse(t) == ParseSum(t);
    if Depth(t) == 0 {
      assert ParseSum(t) == ParseProduct(t);
      assert ParseProduct(t) == ParsePower(t);
      assert ParsePower(t) == ParseAtom(t);
    }
  }

  /** After a position where the depth is 0 and the character is not a
      parenthesis, the rest has the depth of the whole. */
  lemma DepthAfterSplit(t: string, i: nat)
    requires i < |t| && Depth(t[..i]) == 0 && t[i] != '(' && t[i] != ')'
    ensures Depth(t[i + 1..]) == Depth(t)
  {
    var a, c, b := t[..i], t[i], t[i + 1..];
    assert t == a + [c] + b;
    DepthConcat(a + [c], b);
    DepthConcat(a, [c]);
    assert Depth([c]) == 0 by {
      assert [c][..0] == [];
    }
  }

  /** Two operands joined by an operator character are split at it when
      nothing outside parentheses binds more loosely: the left operand has
      no operator of the same or a weaker level, the right one none of a
      weaker level. A left operand of + or - is not empty. */
  lemma ParseJoin(a: string, c: char, b: string)
    requires ' ' !in a && ' ' !in b && c in Operators
    requires Depth(a) == 0 && Depth(b) == 0
    requires FirstTop(a, AddOps) == None
    requires c in AddOps ==> a != []
    requires c !in AddOps ==> FirstTop(a, MulOps) == None && FirstTop(b, AddOps) == None
    requires c in PowOps ==> FirstTop(a, PowOps) == None && FirstTop(b, MulOps) == None
    ensures Parse(a + [c] + b) == Combine(OpOf(c), Parse(a), Parse(b))
  {
    var t := a + [c] + b;
    assert ' ' !in t;
    RemoveSpacesKeeps(t);
    assert Parse(t) == ParseSum(t);
    if c in AddOps {
      SumJoin(a, c, b);
    } else {
      PastSum(a, c, b);
      if c in MulOps {
        ProductJoin(a, c, b);
      } else {
        PastProduct(a, c, b);
        PowerJoin(a, c, b);
      }
    }
  }

  lemma JoinParts(a: string, c: char, b: string)
    ensures var t := a + [c] + b; t[..|a|] == a && t[|a|] == c && t[|a| + 1..] == b
  {
  }

  /** The first scan splits at a + or - after a left operand without one. */
  lemma SumJoin(a: string, c: char, b: string)
    requires Depth(a) == 0 && FirstTop(a, AddOps) == None && c in AddOps && a != []
    ensures ParseSum(a + [c] + b) == Combine(OpOf(c), Parse(a), Parse(b))
  {
    JoinParts(a, c, b);
    FirstTopJoin(a, c, b, AddOps);
  }

  /** The first scan passes a balanced join at * / or ^ on. */
  lemma PastSum(a: string, c: char, b: string)
    requires Depth(a) == 0 && Depth(b) == 0 && c in MulOps + PowOps
    requires FirstTop(a, AddOps) == None && FirstTop(b, AddOps) == None
    ensures ParseSum(a + [c] + b) == ParseProduct(a + [c] + b)
  {
    FirstTopJoin(a, c, b, AddOps);
    DepthConcat(a + [c], b);
    DepthConcat(a, [c]);
    assert Depth([c]) == 0 by {
      assert [c][..0] == [];
    }
  }

  /** The second scan splits at a * or / after a left operand without one. */
  lemma ProductJoin(a: string, c: char, b: string)
    requires Depth(a) == 0 && FirstTop(a, MulOps) == None && c in MulOps
    ensures ParseProduct(a + [c] + b) == Combine(OpOf(c), Parse(a), Parse(b))
  {
    JoinParts(a, c, b);
    FirstTopJoin(a, c, b, MulOps);
  }

  /** The second scan passes a join at ^ on. */
  lemma PastProduct(a: string, c: char, b: string)
    requires Depth(a) == 0 && c in PowOps
    requires FirstTop(a, MulOps) == None && FirstTop(b, MulOps) == None
    ensures ParseProduct(a + [c] + b) == ParsePower(a + [c] + b)
  {
    FirstTopJoin(a, c, b, MulOps);
  }

  /** The third scan splits at a ^ after a left operand without one. */
  lemma PowerJoin(a: string, c: char, b: string)
    requires Depth(a) == 0 && FirstTop(a, PowOps) == None && c in PowOps
    ensures ParsePower(a + [c] + b) == Combine(OpOf(c), Parse(a), Parse(b))
  {
    JoinParts(a, c, b);
    FirstTopJoin(a, c, b, PowOps);
  }


  /** A leading + or - has the constant 0 as its left operand, so "-x"
      reads as 0 - x. A sign after another operator is a split too:
      "2*-3" reads as (2 * e) - 3, where e is the variable with the empty
      name (Examples.SignAfterOperator). */
  lemma ParseLeadingSign(c: char, b: string)
    requires c in AddOps
    ensures Parse([c] + b) == Combine(OpOf(c), Success(Const(0)), Parse(b))
  {
    var y := RemoveSpaces(b);
    RemoveSpacesConcat([c], b);
    RemoveSpacesKeeps([c]);
    FirstTopCons(c, y, AddOps);
    assert ([c] + y)[1..] == y;
    ParseIgnoresSpaces(b);
  }

  /** Atomic text without spaces goes straight to the atom cases. */
  lemma ParseAtomic(t: string)
    requires ' ' !in t && Atomic(t)
    ensures Parse(t) == ParseAtom(t) && ParseSum(t) == ParseAtom(t)
  {
    RemoveSpacesKeeps(t);
    AtomicUnsplit(t, AddOps);
    AtomicUnsplit(t, MulOps);
    AtomicUnsplit(t, PowOps);
    assert Parse(t) == ParseSum(t);
    assert ParseSum(t) == ParseProduct(t);
    assert ParseProduct(t) == ParsePower(t);
  }

  /** A parenthesised group is read as the constructor builds it: the
      inside, parsed to q, gives (q - q) + q. */
  lemma ParseGroup(x: string)
    requires Balanced(RemoveSpaces(x))
    ensures Parse("(" + x + ")") == Combine(Add, Combine(Sub, Parse(x), Parse(x)), Parse(x))
  {
    var y := RemoveSpaces(x);
    var t := "(" + y + ")";
    assert Nonneg(y) && Depth(y) == 0;
    Enclosed(y, Operators);
    assert Atomic(t);
    ParseAtomic(t);
    assert Substr(t, 1, SizeSub(|t|, 2)) == y;
    GroupSpaces(x);
    assert Parse("(" + x + ")") == ParseSum(t);
    ParseIgnoresSpaces(x);
    var p := Parse(y);
    assert p == Parse(x);
    assert ParseAtom(t) == if p.Success? then Success(Paren(p.value)) else Failure(p.error);
  }

  /** Deleting the spaces around a group keeps the parentheses. */
  lemma GroupSpaces(x: string)
    ensures RemoveSpaces("(" + x + ")") == "(" + RemoveSpaces(x) + ")"
  {
    assert "(" + x + ")" == "(" + (x + ")");
    RemoveSpacesConcat("(", x + ")");
    RemoveSpacesConcat(x, ")");
    RemoveSpacesKeeps("(");
    RemoveSpacesKeeps(")");
  }

  /** A call of sin, cos, exp or ln around balanced text is read as that
      function of the parsed argument. */
  lemma ParseCall(f: UnFn, x: string)
    requires Balanced(RemoveSpaces(x))
    ensures Parse(FnName(f) + "(" + x + ")")
      == (var p := Parse(x); if p.Success? then Success(Un(f, p.value)) else p)
  {
    var y := RemoveSpaces(x);
    var t := FnName(f) + ("(" + y + ")");
    CallText(f, x);
    ParseAtomic(t);
    assert Parse(FnName(f) + "(" + x + ")") == ParseSum(t);
    CallAtom(f, y);
    ParseIgnoresSpaces(x);
  }

  /** A call around balanced text is, without its spaces, atomic. */
  lemma CallText(f: UnFn, x: string)
    requires Balanced(RemoveSpaces(x))
    ensures RemoveSpaces(FnName(f) + "(" + x + ")") == FnName(f) + ("(" + RemoveSpaces(x) + ")")
    ensures Atomic(FnName(f) + ("(" + RemoveSpaces(x) + ")"))
  {
    var name, y := FnName(f), RemoveSpaces(x);
    FnNameAtomic(f);
    assert RemoveSpaces(name + "(" + x + ")") == name + ("(" + y + ")") by {
      assert name + "(" + x + ")" == name + ("(" + x + ")");
      RemoveSpacesConcat(name, "(" + x + ")");
      RemoveSpacesKeeps(name);
      GroupSpaces(x);
    }
    CallAtomic(f, y);
  }

  lemma CallAtomic(f: UnFn, y: string)
    requires Balanced(y)
    ensures Atomic(FnName(f) + ("(" + y + ")"))
  {
    var name, g := FnName(f), "(" + y + ")";
    FnNameAtomic(f);
    Enclosed(y, Operators);
    FirstTopConcat(name, g, Operators);
    DepthConcat(name, g);
    NonnegConcat(name, g);
  }

  lemma FnNameAtomic(f: UnFn)
    ensures ' ' !in FnName(f) && Atomic(FnName(f))
  {
    match f
    case Sin => PlainIsAtomic("sin");
    case Cos => PlainIsAtomic("cos");
    case Ln => PlainIsAtomic("ln");
    case Exp => PlainIsAtomic("exp");
  }

  /** The atom cases recognise a call by its name and the "(" after it, and
      take the text up to the last character as the argument. */
  lemma CallAtom(f: UnFn, y: string)
    ensures ParseAtom(FnName(f) + ("(" + y + ")"))
      == (var p := Parse(y); if p.Success? then Success(Un(f, p.value)) else p)
  {
    var name := FnName(f);
    var t := name + ("(" + y + ")");
    assert t[0] == name[0];
    assert Substr(t, 0, 4) == t[..4] && Substr(t, 0, 3) == t[..3];
    if f == Ln {
      assert t[..3] == "ln(";
      assert Substr(t, 3, SizeSub(|t|, 4)) == y;
    } else {
      assert t[..4] == name + "(";
      assert Substr(t, 4, SizeSub(|t|, 5)) == y;
    }
  }

  /** The decimal text of a number reads as that constant. */
  lemma ParseLiteral(n: nat)
    ensures Parse(NatToString(n)) == Success(Const(n))
  {
    var s := NatToString(n);
    assert forall c :: c in s ==> IsDigit(c);
    PlainIsAtomic(s);
    ParseAtomic(s);
    DigitsAtom(s);
    LiteralOfNatToString(n);
  }

  /** Text that starts with a digit is neither a group nor a call. */
  lemma DigitsAtom(s: string)
    requires s != [] && IsDigit(s[0])
    ensures ParseAtom(s) == Success(Const(LiteralValue(s)))
  {
    assert Substr(s, 0, 4) != "sin(" && Substr(s, 0, 4) != "cos(" && Substr(s, 0, 4) != "exp(" by {
      assert Substr(s, 0, 4) <= s;
    }
    assert Substr(s, 0, 3) != "ln(" by {
      assert Substr(s, 0, 3) <= s;
    }
  }

  /** Text the parser reads as a variable of that name: no space,
      parenthesis or operator character, and no leading digit. */
  predicate IsName(x: string) {
    (forall i :: 0 <= i < |x| ==> x[i] != ' ' && x[i] != '(' && x[i] != ')' && x[i] !in Operators)
    && (x == [] || !IsDigit(x[0]))
  }

  /** A name, the empty one included, reads as the variable of that name. */
  lemma ParseName(x: string)
    requires IsName(x)
    ensures Parse(x) == Success(Var(x))
  {
    PlainIsAtomic(x);
    ParseAtomic(x);
    var four, three := Substr(x, 0, 4), Substr(x, 0, 3);
    assert four <= x && three <= x;
    assert |four| == 4 ==> four[3] == x[3];
    assert |three| == 3 ==> three[2] == x[2];
  }
}

=== FILE: printer.dfy ===
/**
 * The stringifier (`to_string`) and the textual differentiator (`diff`)
 * of every node kind. Both are total: they only compose text and never
 * evaluate anything.
 */
module Printer {
  import opened Tree

  predicate IsDigit(c: char) {
    '0' <= c <= '9'
  }

  function DigitChar(d: nat): (c: char)
    requires d < 10
    ensures IsDigit(c)
  {
    ('0' as int + d) as char
  }

  /** `std::to_string` of a non-negative int: its decimal digits, with no
      leading zero except for 0 itself. */
  function NatToString(n: nat): (s: string)
    ensures |s| >= 1
    ensures forall i :: 0 <= i < |s| ==> IsDigit(s[i])
    ensures s[0] == '0' ==> n == 0
  {
    if n < 10 then [DigitChar(n)] else NatToString(n / 10) + [DigitChar(n % 10)]
  }

  /** `std::to_string` of an int: a minus sign before the digits of a
      negative number. */
  function IntToString(n: int): (s: string)
    ensures |s| >= 1
    ensures s[0] == '-' <==> n < 0
    ensures forall i :: (if n < 0 then 1 else 0) <= i < |s| ==> IsDigit(s[i])
  {
    if n < 0 then "-" + NatToString(-n) else NatToString(n)
  }

  function Symbol(op: BinOp): char {
    match op
    case Add => '+'
    case Sub => '-'
    case Mul => '*'
    case Div => '/'
    case Pow => '^'
  }

  function FnName(f: UnFn): string {
    match f
    case Sin => "sin"
    case Cos => "cos"
    case Ln => "ln"
    case Exp => "exp"
  }

  /** The fully parenthesised rendering: every binary node is written
      "(L op R)", a function "name(X)", a variable by its name, a constant
      by `std::to_string`. */
  function ToString(e: Expr): (s: string)
    ensures e.Const? ==> |s| >= 1 && (s[0] == '-' <==> e.value < 0)
    ensures e.Var? ==> s == e.name
    ensures e.Bin? ==> |s| >= 5 && s[0] == '(' && s[|s| - 1] == ')'
  {
    match e
    case Const(v) => IntToString(v)
    case Var(x) => x
    case Bin(op, l, r) => "(" + ToString(l) + " " + [Symbol(op)] + " " + ToString(r) + ")"
    case Un(f, x) => FnName(f) + "(" + ToString(x) + ")"
  }

  /** The text of the derivative of `e` with respect to the variable `v`,
      built from the operands' renderings and their derivatives' texts.
      The power rule treats the exponent as a constant, and its "R - 1" is
      the rendering of the tree `R - 1` (the constant 1 of the numeric
      type). */
  function Diff(e: Expr, v: string): (d: string)
    ensures d == "1" <==> e == Var(v)
    ensures d == "0" <==> e.Const? || (e.Var? && e.name != v)
    ensures d != "0" && d != "1" ==> |d| >= 2 && d[0] == '(' && d[|d| - 1] == ')'
  {
    match e
    case Const(_) => "0"
    case Var(x) => if v != x then "0" else "1"
    case Bin(Add, l, r) => "(" + Diff(l, v) + " + " + Diff(r, v) + ")"
    case Bin(Sub, l, r) => "(" + Diff(l, v) + " - " + Diff(r, v) + ")"
    case Bin(Mul, l, r) =>
      "(" + ToString(l) + " * " + Diff(r, v) + " + " + Diff(l, v) + " * " + ToString(r) + ")"
    case Bin(Div, l, r) =>
      "((" + Diff(l, v) + " * " + ToString(r) + " - " + ToString(l) + " * " + Diff(r, v)
      + ") / (" + ToString(r) + " ^ 2))"
    case Bin(Pow, l, r) =>
      "(" + ToString(r) + " * (" + ToString(l) + " ^ " + ToString(Bin(Sub, r, Const(1)))
      + ") * " + Diff(l, v) + ")"
    case Un(Sin, x) => "(cos(" + ToString(x) + ") * " + Diff(x, v) + ")"
    case Un(Cos, x) => "(-sin(" + ToString(x) + ") * " + Diff(x, v) + ")"
    case Un(Exp, x) => "(exp(" + ToString(x) + ") * " + Diff(x, v) + ")"
    case Un(Ln, x) => "(" + Diff(x, v) + "/" + ToString(x) + ")"
  }
}

=== FILE: reading.dfy ===
/**
 * Reading printed text back. `to_string` parenthesises every binary node,
 * so the parser reads a printed tree back with every binary node wrapped
 * in the parser's own group tree, (q - q) + q, which evaluates like q.
 */
module Reading {
  import opened Tree
  import opened Printer
  import opened Evaluator
  import opened Scanning
  import opened Parser

  /** The trees the library's text format is designed for: constants are
      not negative and variables are non-empty identifiers. */
  predicate WellFormed(e: Expr) {
    match e
    case Const(n) => n >= 0
    case Var(x) => x != [] && IsName(x)
    case Bin(_, l, r) => WellFormed(l) && WellFormed(r)
    case Un(_, x) => WellFormed(x)
  }

  /** The tree the parser builds from the printed form of `e`. */
  function Reparsed(e: Expr): Expr {
    match e
    case Const(_) => e
    case Var(_) => e
    case Bin(op, l, r) => Paren(Bin(op, Reparsed(l), Reparsed(r)))
    case Un(f, x) => Un(f, Reparsed(x))
  }

  /** The parser's group tree evaluates like what it groups, failures
      included. */
  lemma ParenEval(q: Expr, ctx: map<string, int>, lib: Library)
    ensures Eval(Paren(q), ctx, lib) == Eval(q, ctx, lib)
  {
  }

  /** Reading back changes no value and no failure. */
  lemma {:induction false} ReparsedEval(e: Expr, ctx: map<string, int>, lib: Library)
    ensures Eval(Reparsed(e), ctx, lib) == Eval(e, ctx, lib)
  {
    match e
    case Const(_) =>
    case Var(_) =>
    case Bin(op, l, r) =>
      ReparsedEval(l, ctx, lib);
      ReparsedEval(r, ctx, lib);
      ParenEval(Bin(op, Reparsed(l), Reparsed(r)), ctx, lib);
    case Un(_, x) =>
      ReparsedEval(x, ctx, lib);
  }

  /** Reading back loses nothing: different trees are read back as
      different trees. */
  lemma {:induction false} ReparsedInjective(a: Expr, b: Expr)
    ensures Reparsed(a) == Reparsed(b) ==> a == b
  {
    if Reparsed(a) == Reparsed(b) {
      match a
      case Const(_) =>
      case Var(_) =>
      case Bin(_, l, r) =>
        ReparsedInjective(l, b.left);
        ReparsedInjective(r, b.right);
      case Un(_, x) =>
        ReparsedInjective(x, b.arg);
    }
  }

  // -----------------------------------------------------------------------
  // Printed text without its spaces
  // -----------------------------------------------------------------------

  /** The printed form with its spaces deleted. */
  function Squeezed(e: Expr): string {
    RemoveSpaces(ToString(e))
  }

  lemma Blank()
    ensures RemoveSpaces(" ") == []
  {
    assert " "[1..] == [];
  }

  lemma NoBlank(s: string)
    requires |s| == 1 && s[0] != ' '
    ensures RemoveSpaces(s) == s
  {
    assert s[1..] == [];
  }

  /** " op " between two texts: the spaces go, the symbol stays. */
  lemma SpacedSymbol(a: string, c: char, b: string)
    requires c != ' '
    ensures RemoveSpaces(a + " " + [c] + " " + b)
      == RemoveSpaces(a) + [c] + RemoveSpaces(b)
  {
    var x := a + " ";
    var y := x + [c];
    var z := y + " ";
    Blank();
    NoBlank([c]);
    RemoveSpacesConcat(a, " ");
    assert RemoveSpaces(x) == RemoveSpaces(a);
    RemoveSpacesConcat(x, [c]);
    assert RemoveSpaces(y) == RemoveSpaces(a) + [c];
    RemoveSpacesConcat(y, " ");
    assert RemoveSpaces(z) == RemoveSpaces(a) + [c];
    RemoveSpacesConcat(z, b);
  }

  lemma BinText(op: BinOp, l: Expr, r: Expr)
    ensures Squeezed(Bin(op, l, r)) == "(" + (Squeezed(l) + [Symbol(op)] + Squeezed(r)) + ")"
  {
    var x := ToString(l) + " " + [Symbol(op)] + " " + ToString(r);
    assert ToString(Bin(op, l, r)) == "(" + x + ")";
    GroupSpaces(x);
    SpacedSymbol(ToString(l), Symbol(op), ToString(r));
  }

  /** A single character other than a parenthesis. */
  lemma Single(c: char)
    requires c != '(' && c != ')'
    ensures Depth([c]) == 0 && Nonneg([c])
  {
    assert [c][..0] == [] && [c][..1] == [c];
    assert [c][..|[c]| - 1] == [];
  }

  /** Two atomic texts joined by an operator: the join splits there, is
      balanced, and has no + or - at depth 0 unless it is the joining
      one. */
  lemma JoinAtoms(a: string, c: char, b: string)
    requires ' ' !in a && ' ' !in b && c in Operators
    requires Atomic(a) && Atomic(b) && a != []
    ensures Parse(a + [c] + b) == Combine(OpOf(c), Parse(a), Parse(b))
    ensures Balanced(a + [c] + b)
    ensures c !in AddOps ==> FirstTop(a + [c] + b, AddOps) == None
  {
    AtomicUnsplit(a, AddOps);
    AtomicUnsplit(a, MulOps);
    AtomicUnsplit(a, PowOps);
    AtomicUnsplit(b, AddOps);
    AtomicUnsplit(b, MulOps);
    ParseJoin(a, c, b);
    Single(c);
    NonnegConcat(a, [c]);
    NonnegConcat(a + [c], b);
    DepthConcat(a, [c]);
    DepthConcat(a + [c], b);
    FirstTopJoin(a, c, b, AddOps);
  }

  /** Balanced text in parentheses is atomic and reads as the group. */
  lemma GroupAtom(x: string)
    requires ' ' !in x && Balanced(x)
    ensures Atomic("(" + x + ")") && ' ' !in "(" + x + ")"
    ensures Parse("(" + x + ")") == Combine(Add, Combine(Sub, Parse(x), Parse(x)), Parse(x))
  {
    Enclosed(x, Operators);
    RemoveSpacesKeeps(x);
    ParseGroup(x);
  }

  /** The printed form of a well-formed tree, without its spaces, is
      atomic: joined to other text by an operator it is never split. */
  lemma {:induction false} PrintedAtomic(e: Expr)
    requires WellFormed(e)
    ensures Atomic(Squeezed(e)) && Squeezed(e) != []
  {
    match e
    case Const(n) =>
      var s := NatToString(n);
      assert forall c :: c in s ==> IsDigit(c);
      RemoveSpacesKeeps(s);
      PlainIsAtomic(s);
    case Var(x) =>
      RemoveSpacesKeeps(x);
      PlainIsAtomic(x);
    case Bin(op, l, r) =>
      PrintedAtomic(l);
      PrintedAtomic(r);
      BinAtomic(op, l, r);
    case Un(f, x) =>
      PrintedAtomic(x);
      CallText(f, ToString(x));
  }

  lemma BinAtomic(op: BinOp, l: Expr, r: Expr)
    requires Atomic(Squeezed(l)) && Atomic(Squeezed(r)) && Squeezed(l) != []
    ensures Atomic(Squeezed(Bin(op, l, r))) && Squeezed(Bin(op, l, r)) != []
  {
    BinText(op, l, r);
    OpOfSymbol(op);
    JoinedAtomic(Squeezed(l), Symbol(op), Squeezed(r));
  }

  /** Two atoms joined by an operator, in parentheses, make an atom. */
  lemma JoinedAtomic(a: string, c: char, b: string)
    requires ' ' !in a && ' ' !in b && c in Operators
    requires Atomic(a) && Atomic(b) && a != []
    ensures Atomic("(" + (a + [c] + b) + ")")
  {
    JoinAtoms(a, c, b);
    Enclosed(a + [c] + b, Operators);
  }

  /** Printing a well-formed tree and parsing the text gives the tree
      with every binary node wrapped in the parser's group tree. */
  lemma {:induction false} ParsePrinted(e: Expr)
    requires WellFormed(e)
    ensures Parse(ToString(e)) == Success(Reparsed(e))
  {
    match e
    case Const(n) =>
      ParseLiteral(n);
    case Var(x) =>
      ParseName(x);
    case Bin(op, l, r) =>
      ParsePrinted(l);
      ParsePrinted(r);
      PrintedAtomic(l);
      PrintedAtomic(r);
      var L, R := Squeezed(l), Squeezed(r);
      ParseIgnoresSpaces(ToString(l));
      ParseIgnoresSpaces(ToString(r));
      BinText(op, l, r);
      OpOfSymbol(op);
      JoinAtoms(L, Symbol(op), R);
      GroupAtom(L + [Symbol(op)] + R);
      ParseIgnoresSpaces(ToString(e));
    case Un(f, x) =>
      ParsePrinted(x);
      PrintedAtomic(x);
      ParseCall(f, ToString(x));
  }

  /** The printed form of a well-formed tree reads back as a tree with the
      same value and the same failure under every context. */
  lemma PrintedEval(e: Expr, ctx: map<string, int>, lib: Library)
    requires WellFormed(e)
    ensures Parse(ToString(e)).Success?
    ensures Eval(Parse(ToString(e)).value, ctx, lib) == Eval(e, ctx, lib)
  {
    ParsePrinted(e);
    ReparsedEval(e, ctx, lib);
  }

  /** Different well-formed trees print differently. */
  lemma PrintInjective(a: Expr, b: Expr)
    requires WellFormed(a) && WellFormed(b)
    ensures ToString(a) == ToString(b) ==> a == b
  {
    ParsePrinted(a);
    ParsePrinted(b);
    ReparsedInjective(a, b);
  }
}

=== FILE: scanning.dfy ===
/**
 * The text-level notions the parser is built from: deleting spaces, the
 * parenthesis depth of a prefix, the first operator at depth 0, the
 * `std::string` operations `find` and `substr`, and the reading of a
 * numeric literal.
 */
module Scanning {
  import opened Tree
  import opened Printer

  const AddOps: set<char> := {'+', '-'}
  const MulOps: set<char> := {'*', '/'}
  const PowOps: set<char> := {'^'}
  const Operators: set<char> := AddOps + MulOps + PowOps

  // ---------------------------------------------------------------------
  // Deleting spaces
  // ---------------------------------------------------------------------

  /** The text with every ' ' deleted; tabs and other characters stay, in
      order. */
  function RemoveSpaces(s: string): (t: string)
    ensures |t| <= |s|
    ensures ' ' !in t
    ensures forall c :: c != ' ' ==> (c in t <==> c in s)
  {
    if s == [] then [] else (if s[0] == ' ' then [] else [s[0]]) + RemoveSpaces(s[1..])
  }

  lemma {:induction false} RemoveSpacesConcat(a: string, b: string)
    ensures RemoveSpaces(a + b) == RemoveSpaces(a) + RemoveSpaces(b)
    decreases |a|
  {
    if a == [] {
      assert a + b == b;
    } else {
      assert (a + b)[0] == a[0];
      assert (a + b)[1..] == a[1..] + b;
      RemoveSpacesConcat(a[1..], b);
    }
  }

  /** Text without spaces is left as it is. */
  lemma {:induction false} RemoveSpacesKeeps(s: string)
    requires ' ' !in s
    ensures RemoveSpaces(s) == s
    decreases |s|
  {
    if s != [] {
      assert s[0] in s;
      assert forall c :: c in s[1..] ==> c in s;
      RemoveSpacesKeeps(s[1..]);
    }
  }

  /** Deleting the space at position k deletes nothing else. */
  lemma {:induction false} DeleteOneSpace(s: string, k: nat)
    requires k < |s| && s[k] == ' '
    ensures RemoveSpaces(s[..k] + s[k + 1..]) == RemoveSpaces(s)
  {
    var a, b := s[..k], s[k + 1..];
    assert s == (a + [' ']) + b;
    assert RemoveSpaces([' ']) == [] by {
      assert [' '][1..] == [];
    }
    assert RemoveSpaces(a + [' ']) == RemoveSpaces(a) by {
      RemoveSpacesConcat(a, [' ']);
    }
    RemoveSpacesConcat(a + [' '], b);
    RemoveSpacesConcat(a, b);
  }

  /** `std::string::find` of one character; "not found" (`npos`) is
      modelled as the length, so `find(c) < size()` keeps its meaning. */
  function Find(s: string, c: char): (k: nat)
    ensures k <= |s|
    ensures k < |s| ==> s[k] == c
    ensures forall j :: 0 <= j < k ==> s[j] != c
  {
    if s == [] then 0 else if s[0] == c then 0 else 1 + Find(s[1..], c)
  }

  // ---------------------------------------------------------------------
  // Parenthesis depth and operators at depth 0
  // ---------------------------------------------------------------------

  function Delta(c: char): int {
    if c == '(' then 1 else if c == ')' then -1 else 0
  }

  /** The depth counter after scanning `s`: the number of '(' minus the
      number of ')'. It may go negative. */
  function Depth(s: string): int {
    if s == [] then 0 else Depth(s[..|s| - 1]) + Delta(s[|s| - 1])
  }

  /** Scanning position j, the parser splits there when the character is
      one of `ops` and the depth before it is 0. */
  predicate IsTopOp(t: string, j: nat, ops: set<char>)
    requires j < |t|
  {
    t[j] in ops && Depth(t[..j]) == 0
  }

  /** The first position at or after k where the parser splits. */
  function FirstTopFrom(t: string, ops: set<char>, k: nat): (r: Option<nat>)
    requires k <= |t|
    ensures r.Some? ==> k <= r.value < |t| && IsTopOp(t, r.value, ops)
    ensures r.Some? ==> forall j :: k <= j < r.value ==> !IsTopOp(t, j, ops)
    ensures r.None? ==> forall j :: k <= j < |t| ==> !IsTopOp(t, j, ops)
    decreases |t| - k
  {
    if k == |t| then None
    else if IsTopOp(t, k, ops) then Some(k)
    else FirstTopFrom(t, ops, k + 1)
  }

  /** The first position where the parser splits, if any. */
  function FirstTop(t: string, ops: set<char>): (r: Option<nat>)
    ensures r.Some? ==> r.value < |t| && IsTopOp(t, r.value, ops)
    ensures r.Some? ==> forall j :: 0 <= j < r.value ==> !IsTopOp(t, j, ops)
    ensures r.None? ==> forall j :: 0 <= j < |t| ==> !IsTopOp(t, j, ops)
  {
    FirstTopFrom(t, ops, 0)
  }

  /** The position described as the first split position is FirstTop. */
  lemma {:induction false} FirstTopIs(t: string, ops: set<char>, r: Option<nat>)
    requires r.Some? ==> r.value < |t| && IsTopOp(t, r.value, ops)
    requires r.Some? ==> forall j :: 0 <= j < r.value ==> !IsTopOp(t, j, ops)
    requires r.None? ==> forall j :: 0 <= j < |t| ==> !IsTopOp(t, j, ops)
    ensures FirstTop(t, ops) == r
  {
    var f := FirstTop(t, ops);
    if f.Some? && r.Some? {
      assert !(f.value < r.value) && !(r.value < f.value);
    }
  }

  function Shift(r: Option<nat>, n: nat): Option<nat> {
    match r
    case None => None
    case Some(k) => Some(k + n)
  }

  /** Every prefix of `p` has a non-negative depth. */
  ghost predicate Nonneg(p: string) {
    forall k :: 0 <= k <= |p| ==> Depth(p[..k]) >= 0
  }

  /** The parentheses of `p` are balanced. */
  ghost predicate Balanced(p: string) {
    Depth(p) == 0 && Nonneg(p)
  }

  /** `p` is balanced and has no operator at depth 0: joined to other text
      by an operator, it is never split. */
  ghost predicate Atomic(p: string) {
    Balanced(p) && FirstTop(p, Operators) == None
  }

  lemma {:induction false} DepthConcat(a: string, b: string)
    ensures Depth(a + b) == Depth(a) + Depth(b)
    decreases |b|
  {
    if b == [] {
      assert a + b == a;
    } else {
      assert (a + b)[..|a + b| - 1] == a + b[..|b| - 1];
      DepthConcat(a, b[..|b| - 1]);
    }
  }

  lemma {:induction false} DepthPrefixConcat(a: string, b: string, k: nat)
    requires k <= |a| + |b|
    ensures k <= |a| ==> Depth((a + b)[..k]) == Depth(a[..k])
    ensures k > |a| ==> Depth((a + b)[..k]) == Depth(a) + Depth(b[..k - |a|])
  {
    if k <= |a| {
      assert (a + b)[..k] == a[..k];
    } else {
      assert (a + b)[..k] == a + b[..k - |a|];
      DepthConcat(a, b[..k - |a|]);
    }
  }

  /** Behind a balanced prefix without split positions, the split
      positions are those of the rest, shifted. */
  lemma {:induction false} FirstTopConcat(a: string, b: string, ops: set<char>)
    requires Depth(a) == 0 && FirstTop(a, ops) == None
    ensures FirstTop(a + b, ops) == Shift(FirstTop(b, ops), |a|)
  {
    var t := a + b;
    forall j | 0 <= j < |t|
      ensures IsTopOp(t, j, ops) == if j < |a| then IsTopOp(a, j, ops) else IsTopOp(b, j - |a|, ops)
    {
      DepthPrefixConcat(a, b, j);
    }
    FirstTopIs(t, ops, Shift(FirstTop(b, ops), |a|));
  }

  /** A single non-parenthesis character in front of `b`. */
  lemma {:induction false} FirstTopCons(c: char, b: string, ops: set<char>)
    requires c != '(' && c != ')'
    ensures FirstTop([c] + b, ops) == if c in ops then Some(0) else Shift(FirstTop(b, ops), 1)
  {
    var cb := [c] + b;
    assert cb[..0] == [];
    if c in ops {
      assert IsTopOp(cb, 0, ops);
    } else {
      assert [c][..0] == [];
      assert Depth([c]) == 0;
      FirstTopIs([c], ops, None);
      FirstTopConcat([c], b, ops);
    }
  }

  lemma {:induction false} FirstTopBehind(a: string, c: char, b: string, ops: set<char>)
    requires Depth(a) == 0 && FirstTop(a, ops) == None
    requires c != '(' && c != ')'
    ensures FirstTop(a + ([c] + b), ops) == if c in ops then Some(|a|) else Shift(FirstTop(b, ops), |a| + 1)
  {
    var cb := [c] + b;
    var x, y := FirstTop(cb, ops), FirstTop(a + cb, ops);
    FirstTopConcat(a, cb, ops);
    assert y == Shift(x, |a|);
    FirstTopCons(c, b, ops);
    if c in ops {
      assert x == Some(0);
    } else {
      var z := FirstTop(b, ops);
      assert x == Shift(z, 1);
      if z.Some? {
        assert y == Some(z.value + 1 + |a|);
      }
    }
  }

  /** Joining `a` and `b` by the operator c: the first split position is c
      when c is one of `ops`, otherwise it is in `b`. */
  lemma {:induction false} FirstTopJoin(a: string, c: char, b: string, ops: set<char>)
    requires Depth(a) == 0 && FirstTop(a, ops) == None
    requires c != '(' && c != ')'
    ensures FirstTop(a + [c] + b, ops) == if c in ops then Some(|a|) else Shift(FirstTop(b, ops), |a| + 1)
  {
    var t := a + [c] + b;
    assert t == a + ([c] + b);
    FirstTopBehind(a, c, b, ops);
  }

  /** Text inside a pair of parentheses is never split. */
  lemma {:induction false} Enclosed(x: string, ops: set<char>)
    requires Nonneg(x)
    requires '(' !in ops && ')' !in ops
    ensures FirstTop("(" + x + ")", ops) == None
    ensures Depth("(" + x + ")") == Depth(x)
    ensures Depth(x) == 0 ==> Balanced("(" + x + ")")
  {
    var t := "(" + x + ")";
    assert t == "(" + (x + ")");
    forall j | 0 <= j < |t|
      ensures !IsTopOp(t, j, ops)
      ensures Depth(t[..j]) >= 1 || j == 0
    {
      if 0 < j {
        DepthPrefixConcat("(", x + ")", j);
        DepthPrefixConcat(x, ")", j - 1);
        assert (x + ")")[..j - 1] == x[..j - 1];
      }
    }
    FirstTopIs(t, ops, None);
    DepthConcat("(" + x, ")");
    DepthConcat("(", x);
    if Depth(x) == 0 {
      forall k | 0 <= k <= |t|
        ensures Depth(t[..k]) >= 0
      {
        if k == |t| {
          assert t[..k] == t;
        } else if k == 0 {
          assert t[..k] == [];
        }
      }
    }
  }

  /** Balanced text followed by balanced text is balanced. */
  lemma {:induction false} NonnegConcat(a: string, b: string)
    requires Nonneg(a) && Nonneg(b)
    ensures Nonneg(a + b)
  {
    assert a[..|a|] == a;
    forall k | 0 <= k <= |a + b|
      ensures Depth((a + b)[..k]) >= 0
    {
      DepthPrefixConcat(a, b, k);
    }
  }

  lemma {:induction false} DepthPlain(p: string)
    requires '(' !in p && ')' !in p
    ensures Depth(p) == 0
    decreases |p|
  {
    if p != [] {
      assert p[|p| - 1] in p;
      assert forall c :: c in p[..|p| - 1] ==> c in p;
      DepthPlain(p[..|p| - 1]);
    }
  }

  /** Text with no parenthesis and no operator is atomic. */
  lemma {:induction false} PlainIsAtomic(p: string)
    requires '(' !in p && ')' !in p
    requires forall i :: 0 <= i < |p| ==> p[i] !in Operators
    ensures Atomic(p)
  {
    forall k | 0 <= k <= |p|
      ensures Depth(p[..k]) == 0
    {
      assert forall c :: c in p[..k] ==> c in p;
      DepthPlain(p[..k]);
    }
    assert p[..|p|] == p;
    FirstTopIs(p, Operators, None);
  }

  /** An atomic text has no split position for any set of operators. */
  lemma {:induction false} AtomicUnsplit(p: string, ops: set<char>)
    requires Atomic(p) && ops <= Operators
    ensures FirstTop(p, ops) == None
  {
    forall j | 0 <= j < |p|
      ensures !IsTopOp(p, j, ops)
    {
      assert !IsTopOp(p, j, Operators);
    }
    FirstTopIs(p, ops, None);
  }

  // ---------------------------------------------------------------------
  // std::string::substr and size_t arithmetic
  // ---------------------------------------------------------------------

  /** The largest `size_t` on a 64-bit target. */
  const SizeMax: nat := 0xFFFF_FFFF_FFFF_FFFF

  /** `a - b` on `size_t`: it wraps around below zero. */
  function SizeSub(a: nat, b: nat): (d: nat)
    requires b <= SizeMax
    ensures a >= b ==> d == a - b
    ensures a < b ==> d > SizeMax - b
  {
    if a >= b then a - b else a - b + SizeMax + 1
  }

  function Min(a: nat, b: nat): nat {
    if a < b then a else b
  }

  /** `s.substr(pos, count)`: at most `count` characters from `pos`. */
  function Substr(s: string, pos: nat, count: nat): (t: string)
    requires pos <= |s|
    ensures |t| == Min(count, |s| - pos)
    ensures t <= s[pos..]
  {
    s[pos..pos + Min(count, |s| - pos)]
  }

  // ---------------------------------------------------------------------
  // Numeric literals
  // ---------------------------------------------------------------------

  /** The longest prefix of `s` made of decimal digits. */
  function LeadingDigits(s: string): (d: string)
    ensures d <= s
    ensures forall i :: 0 <= i < |d| ==> IsDigit(d[i])
    ensures |d| < |s| ==> !IsDigit(s[|d|])
  {
    if s == [] || !IsDigit(s[0]) then [] else [s[0]] + LeadingDigits(s[1..])
  }

  function DigitsValue(d: string): nat
    requires forall i :: 0 <= i < |d| ==> IsDigit(d[i])
  {
    if d == [] then 0
    else
      assert IsDigit(d[|d| - 1]);
      DigitsValue(d[..|d| - 1]) * 10 + (d[|d| - 1] as int - '0' as int)
  }

  /** The value `std::stod` reads from a literal that starts with a digit,
      converted to int: the number its leading run of digits spells. */
  function LiteralValue(s: string): nat {
    DigitsValue(LeadingDigits(s))
  }

  lemma {:induction false} LeadingDigitsAll(s: string)
    requires forall i :: 0 <= i < |s| ==> IsDigit(s[i])
    ensures LeadingDigits(s) == s
    decreases |s|
  {
    if s != [] {
      LeadingDigitsAll(s[1..]);
    }
  }

  /** Reading back the decimal text of a number gives the number. */
  lemma {:induction false} LiteralOfNatToString(n: nat)
    ensures LiteralValue(NatToString(n)) == n
  {
    LeadingDigitsAll(NatToString(n));
    DigitsOfNatToString(n);
  }

  /** Reading back `std::to_string` of any int: the digits after the
      sign, if there is one, give the number's magnitude. */
  lemma IntLiteral(n: int)
    ensures n >= 0 ==> LiteralValue(IntToString(n)) == n
    ensures n < 0 ==> LiteralValue(IntToString(n)[1..]) == -n
  {
    if n < 0 {
      assert IntToString(n)[1..] == NatToString(-n);
      LiteralOfNatToString(-n);
    } else {
      LiteralOfNatToString(n);
    }
  }

  lemma {:induction false} DigitsOfNatToString(n: nat)
    ensures DigitsValue(NatToString(n)) == n
  {
    var s := NatToString(n);
    if n < 10 {
      assert s[..0] == [];
    } else {
      assert s[..|s| - 1] == NatToString(n / 10);
      DigitsOfNatToString(n / 10);
    }
  }
}

=== FILE: tree.dfy ===
/**
 * The expression tree: the closed set of node kinds of the library
 * (a constant, a named variable, five binary operators and four unary
 * analytic functions) and the three errors the library reports.
 *
 * The numeric type is `int`, the instantiation `Expression<int>`.
 */
module Tree {

  /** The five binary node kinds: OperationAdd, OperationSub, OperationMul,
      OperationDiv and OperationPow. */
  datatype BinOp = Add | Sub | Mul | Div | Pow

  /** The four unary node kinds: OperationSin, OperationCos, OperationLn
      and OperationExp. */
  datatype UnFn = Sin | Cos | Ln | Exp

  /** A node. `Const` is Value (one `value_`), `Var` is Variable (one
      `name_`), `Bin` holds exactly a left and a right child, `Un` exactly
      one operand. Children are immutable values: sharing a subtree between
      several parents is not observable. */
  datatype Expr =
    | Const(value: int)
    | Var(name: string)
    | Bin(op: BinOp, left: Expr, right: Expr)
    | Un(fn: UnFn, arg: Expr)

  /** The three failures the library raises (it throws strings). */
  datatype Error =
    | UndefinedVariable(name: string)
    | DivisionByZero
    | ParenthesisMismatch
  {
    /** The exact text that is thrown. */
    function Message(): string {
      match this
      case UndefinedVariable(x) => "The variable \"" + x + "\" is undefined\n"
      case DivisionByZero => "Division by zero"
      case ParenthesisMismatch => "parenthesis missmatch"
    }
  }

  /** The thrown text tells the three kinds apart, and the text of an
      undefined-variable failure determines the variable's name. */
  lemma {:induction false} MessageIdentifiesError(a: Error, b: Error)
    ensures a.Message() == b.Message() ==> a == b
  {
    if a.Message() == b.Message() {
      var pre := "The variable \"";
      match a
      case UndefinedVariable(x) =>
        assert a.Message()[0] == 'T';
        if b.UndefinedVariable? {
          var y := b.name;
          assert |x| == |y|;
          assert x == a.Message()[|pre|..|pre| + |x|];
          assert y == b.Message()[|pre|..|pre| + |y|];
        }
      case DivisionByZero =>
        assert a.Message()[0] == 'D';
      case ParenthesisMismatch =>
        assert a.Message()[0] == 'p';
    }
  }

  /** The outcome of an operation that may throw. */
  datatype Result<+T> = Success(value: T) | Failure(error: Error) {
    predicate IsFailure() {
      Failure?
    }

    function PropagateFailure<U>(): Result<U>
      requires Failure?
    {
      Failure(error)
    }

    function Extract(): T
      requires Success?
    {
      value
    }
  }

  datatype Option<+T> = None | Some(value: T)

  /** The names of the variables that occur in `e`. */
  function Variables(e: Expr): set<string> {
    match e
    case Const(_) => {}
    case Var(x) => {x}
    case Bin(_, l, r) => Variables(l) + Variables(r)
    case Un(_, x) => Variables(x)
  }

  /** Whether `e` has a division node. */
  predicate HasDivision(e: Expr) {
    match e
    case Const(_) => false
    case Var(_) => false
    case Bin(op, l, r) => op == Div || HasDivision(l) || HasDivision(r)
    case Un(_, x) => HasDivision(x)
  }
}
